=== FILE: README.md ===
# coches.com listing-URL crawler, modelled in Dafny

The crawler walks the used-car catalogue of coches.com for one target: a fuel
type and a model-year range. It visits catalogue pages from a saved page number
upwards. Before loading a page it writes the page number to a progress file.
For every listing on the page it builds a descriptive URL and inserts it into
a SQLite table with `INSERT OR IGNORE`. A single streak counter decides when to
stop:

- an empty page bumps it, and the crawl stops once it reaches 5;
- a page whose URLs are all known bumps it, and the crawl stops once it reaches 50;
- a page that brings at least one new URL resets it.

The crawl also stops after page 500. A supervisor calls the crawl at most 5
times in all, waiting 30 seconds after each call that throws before the next.

The model has these modules:

- `JsText`: the JavaScript built-ins the code relies on. These are the
  ECMAScript white-space set, `trim`, the `\w` class, `String(n)` for integers
  and `parseInt`.
- `Checkpoint`: the progress file, `saveProgress` and `loadProgress`.
- `Slug`: `slugify`.
- `Urls`: the catalogue page URL and the stored listing URL, with readers that
  recover the page number, the slug, the listing id and the `origin` province.
- `UrlStore`: the `urls` table as a map from URL to row, with `INSERT OR IGNORE`
  for one row and for a page's batch of rows.
- `Retry`: `gotoWithRetries`, and the attempt/pause log it shares with the
  supervisor.
- `Crawl`: the page loop as a state machine. `PageStep` is one pass of the loop
  body, `Run` is the loop and `Scrape` is one call of the crawl.
- `Supervisor`: `startScrapingWithRetries`, and what makes one call of the crawl
  throw.

Rendering is abstract. Each visited page yields a `PageOutcome`: either the
listings read from the page data, or a page load that failed after its
retries. A run is driven by a sequence of such outcomes.

Three behaviours of the code are easy to miss, and the model keeps them:

- The crawler keeps one streak counter for both stopping rules. Pages of known
  URLs therefore count toward the empty-page limit, and the other way round.
- A page load that still fails after its retries is caught inside the crawl.
  The crawl then returns normally, so the supervisor does not call it again.
  After its last failed call the supervisor gives up without rethrowing.
- The page number is not advanced when a streak stops the loop. The progress
  file holds the last page visited, so a restart visits that page again.

Unicode canonical decomposition (`normalize("NFD")`) is a parameter of the
model, of type `Slug.Normalizer`. Every slug, and so every stored URL, is
built with it, and the proofs assume of it only what `Slug.KeepsAscii`
states: ASCII text has no decomposition.

## Model

| member | source | states |
|---|---|---|
| JsText.TrimStart | first_step_cochescom_bydateandfuel.ts:56 | The result is a suffix of the input. What it drops is all ECMAScript white space, and the result does not start with white space. |
| JsText.TrimEnd | first_step_cochescom_bydateandfuel.ts:56 | The result is a prefix of the input. What it drops is all white space, and the result does not end with white space. |
| JsText.TrimStartSkips | first_step_cochescom_bydateandfuel.ts:56 | Trimming the start of white space followed by a non-space removes exactly that white space. |
| JsText.ShowNat | first_step_cochescom_bydateandfuel.ts:64 | `String(n)` of a natural number below 10^21 is a non-empty run of decimal digits with no leading zero. |
| JsText.ValueOfShowNat | first_step_cochescom_bydateandfuel.ts:64 | The digits written for `n` have the value `n`. |
| JsText.DigitRun | first_step_cochescom_bydateandfuel.ts:69 | `parseInt` reads the longest prefix of digits of the radix: everything before the count is a digit, and the next character is not. |
| JsText.ParseIntSkipsSpace | first_step_cochescom_bydateandfuel.ts:69 | Leading white space never changes what `parseInt` returns. |
| JsText.ParseAfterSign | first_step_cochescom_bydateandfuel.ts:69 | A leading `-` or `+` is read as the sign of the number that follows. |
| JsText.ParseShowInt | first_step_cochescom_bydateandfuel.ts:63-69 | `parseInt` reads back the plain decimal rendering of every integer `n` when the text after it does not start with a digit. For `n` = 0 that text must also not start with `x` or `X`, since "0x" opens a hexadecimal number. This rendering is `String(n)` while `n` is below 10^21 in magnitude. |
| JsText.ParseIntReadsPrefix | first_step_cochescom_bydateandfuel.ts:63-69 | The same read-back holds after any leading white space. |
| JsText.ParseIntNoDigits | first_step_cochescom_bydateandfuel.ts:69 | Text without a decimal digit parses to NaN. |
| Checkpoint.LoadProgress | first_step_cochescom_bydateandfuel.ts:67-73 | The page is never 0. A missing or unreadable file gives 1, and so does content that parses to NaN or 0. Otherwise the page is exactly what `parseInt` read. |
| Checkpoint.LoadAfterSave | first_step_cochescom_bydateandfuel.ts:63-73 | Loading what `saveProgress(page)` wrote gives `page` back, except that a saved 0 loads as 1. Pages are exact integers written in plain digits; see `JsText.ShowInt` under "Left out". |
| Checkpoint.LoadToleratesPadding | first_step_cochescom_bydateandfuel.ts:69 | A saved non-zero page is still read correctly with leading white space and any suffix that does not start with a digit, such as a newline or an `x`. |
| Checkpoint.LoadWithoutDigits | first_step_cochescom_bydateandfuel.ts:69-71 | A file with no decimal digit resumes at page 1. |
| Checkpoint.LoadHexExample | first_step_cochescom_bydateandfuel.ts:69 | A `0x` prefix is read as hexadecimal: "0x1A" resumes at page 26. |
| Checkpoint.LoadBarePrefixExample | first_step_cochescom_bydateandfuel.ts:69 | A bare "0x" has no digits, so it resumes at page 1. |
| Slug.DashSpaces | first_step_cochescom_bydateandfuel.ts:57 | The output has no white space. Each of its characters comes from the input or is `-`, and a leading space becomes a leading dash. |
| Slug.DashSpacesJoins | first_step_cochescom_bydateandfuel.ts:57 | A run of white space between a space-free prefix and text that does not start with white space becomes exactly one dash at that place. The prefix is kept as it is. |
| Slug.CollapseDashes | first_step_cochescom_bydateandfuel.ts:59 | The output has no two adjacent dashes. Its characters come from the input, and its first character is the input's first character. |
| Slug.CollapseJoins | first_step_cochescom_bydateandfuel.ts:59 | A run of one or more dashes between a dash-free prefix and text that does not start with a dash becomes exactly one dash at that place. The prefix is kept as it is. |
| Slug.Slugify | first_step_cochescom_bydateandfuel.ts:50-60 | The result is a slug: only `a-z`, digits, `_` and single dashes. It keeps, in order, every word character of the input after it is decomposed, stripped of combining marks and lowercased. Where its dashes go is stated by `Slug.SlugifyJoinsWords`. |
| Slug.TrimKeepsWords | first_step_cochescom_bydateandfuel.ts:56 | `trim` never removes a word character. |
| Slug.DashSpacesKeepsWords | first_step_cochescom_bydateandfuel.ts:57 | Turning white-space runs into dashes never removes or reorders word characters. |
| Slug.CollapseKeepsWords | first_step_cochescom_bydateandfuel.ts:59 | Collapsing dash runs never removes or reorders word characters. |
| Slug.CollapseFixes | first_step_cochescom_bydateandfuel.ts:59 | Text with no double dash is left as it is. |
| Slug.SlugifyFixesSlugs | first_step_cochescom_bydateandfuel.ts:50-60 | Every step of the pipeline leaves a slug unchanged, given a decomposition that leaves ASCII text alone. |
| Slug.SlugifyIdempotent | first_step_cochescom_bydateandfuel.ts:50-60 | Slugifying a slugify result changes nothing. |
| Slug.SlugifyJoinsWords | first_step_cochescom_bydateandfuel.ts:50-60 | Two ASCII words separated by ASCII white space slug to the two words' slugs joined by one dash. So "Seat Leon" and "SeatLeon" give different slugs. |
| Slug.SlugifyLowerWords | first_step_cochescom_bydateandfuel.ts:56-59 | Lower-case ASCII words separated by ASCII white space are joined by exactly one dash: "a b" slugs to "a-b", not "ab". |
| Slug.SlugifyDecomposes | first_step_cochescom_bydateandfuel.ts:53-54 | Once `á` is decomposed into `a` and a combining acute accent, the accent is stripped and the letter kept: "Málaga" slugs to "malaga". |
| Urls.PageUrlNamesPage | first_step_cochescom_bydateandfuel.ts:125 | The page number is read back by `parseInt` from the end of the catalogue URL. |
| Urls.PageUrlInjective | first_step_cochescom_bydateandfuel.ts:125 | Different pages of one target have different URLs. |
| Urls.DescriptiveSlug | first_step_cochescom_bydateandfuel.ts:160-168 | The result starts with `ocasion-` and is a slug: lowercase word characters with no double dash. Its word characters are, in order, "ocasion", then those of the make, model and engine-detail slugs, then "en", then those of the province slug. |
| Urls.ListingUrl | first_step_cochescom_bydateandfuel.ts:169 | The URL starts with the site base. The descriptive slug is read back from it. When the id has no `&`, the listing id and the unslugified province name in `origin=` are read back too. |
| Urls.SplitAtFirst | first_step_cochescom_bydateandfuel.ts:169 | Splitting at the first `c` recovers the text before and after a `c` that the left part does not contain. |
| Urls.ListingUrlsDiffer | first_step_cochescom_bydateandfuel.ts:169 | Listings that differ in slug or id are never stored under the same URL. |
| UrlStore.InsertOrIgnore | first_step_cochescom_bydateandfuel.ts:114-116 | A change is reported exactly when the URL was absent. Only then is the new row stored. Every other row is kept, and the table grows by one row per change. |
| UrlStore.InsertTwice | first_step_cochescom_bydateandfuel.ts:114-116 | Inserting a row twice reports a change, then none, and leaves one row. |
| UrlStore.InsertAllMeetsSpec | first_step_cochescom_bydateandfuel.ts:171-179 | The `i`-th insert of a page reports a change exactly when its URL is neither in the table nor earlier on the page. The table gains exactly the page's URLs and keeps its old rows. A changed insert stores its own row. The number of changes equals the rows added, which equals the number of new distinct URLs. |
| Retry.Schedule | first_step_cochescom_bydateandfuel.ts:75-90 | A loop of `n` attempts logs `2n - 1` events. |
| Retry.ScheduleShape | first_step_cochescom_bydateandfuel.ts:75-90 | Attempts are numbered 1 to `n` in order, with one pause between consecutive attempts. There is no pause before the first or after the last. |
| Retry.GotoWithRetries | first_step_cochescom_bydateandfuel.ts:75-90 | No attempt is made when `retries <= 0`, and the call then returns normally. Otherwise it makes at most `retries` attempts. The log is the fixed-delay schedule. Every attempt before the last failed. It returns after the first success and rethrows the last error only after `retries` failures. |
| Crawl.PageStep | first_step_cochescom_bydateandfuel.ts:122-193 | Every pass writes its page number to the progress file, whatever happens next. The page advances by one when the loop goes on and stays put when it stops. A pass never stops on the page bound, which only the loop guard checks. |
| Crawl.PageStepCounter | first_step_cochescom_bydateandfuel.ts:145-191 | A failed load stops the loop and leaves the counter alone. An empty page bumps the counter and stops the loop exactly when it reaches 5. A page with a new URL resets it to 0 and goes on. A page of known URLs bumps it and stops the loop exactly when it reaches 50. |
| Crawl.PageStepLog | first_step_cochescom_bydateandfuel.ts:123-179 | A pass logs the checkpoint write, then the load of that page's catalogue URL, then only inserts. A failed or empty page logs no insert, and each pass records exactly its own page. |
| Crawl.PageStepStore | first_step_cochescom_bydateandfuel.ts:145-179 | A failed or empty page leaves the table as it was. Otherwise the table gains exactly the page's URLs and keeps every old row. It grows by one row per reported change, which is one per new distinct URL. |
| Crawl.NewPageContinues | first_step_cochescom_bydateandfuel.ts:182-183 | A page with a URL the table does not hold moves to the next page with the counter at 0 and the page's URLs added. |
| Crawl.KnownPageContinues | first_step_cochescom_bydateandfuel.ts:184-191 | Below the limit, a page of known URLs moves to the next page with the counter one higher and the table unchanged. |
| Crawl.ListingPage | first_step_cochescom_bydateandfuel.ts:157-191 | After the inserts, a new URL means the loop goes on with the counter at 0. Otherwise the counter goes up by one, and the loop stops exactly when it reaches 50. |
| Crawl.RunVisitsPagesInOrder | first_step_cochescom_bydateandfuel.ts:119-123 | Visited pages are the starting page and then consecutive pages, none above 500. |
| Crawl.RunLogsItsPages | first_step_cochescom_bydateandfuel.ts:122-123 | The pages a run reports are exactly the pages whose checkpoint writes appear in its log, in the same order. |
| Crawl.IterationBound | first_step_cochescom_bydateandfuel.ts:122 | A run visits at most `501 - start` pages. |
| Crawl.RunStopsWhereItSays | first_step_cochescom_bydateandfuel.ts:122-194 | `MaxPagesReached` is reported exactly when the page has passed 500. A streak stop or a failed load ends on the last page visited. |
| Crawl.RunWritesCheckpointFirst | first_step_cochescom_bydateandfuel.ts:123-128 | Every page load directly follows the progress-file write for the same page and loads that page's URL. |
| Crawl.RunLeavesCheckpoint | first_step_cochescom_bydateandfuel.ts:123 | After a run, the progress file holds the last page visited, or is untouched if no page was visited. |
| Crawl.RunOnlyAddsRows | first_step_cochescom_bydateandfuel.ts:171-175 | A run never changes or removes a row already in the table. |
| Crawl.EmptyPagesStop | first_step_cochescom_bydateandfuel.ts:145-155 | With the counter at `k`, `5 - k` empty pages in a row stop the crawl (one page when `k >= 4`). The table is unchanged. |
| Crawl.KnownPagesCountTowardEmptyLimit | first_step_cochescom_bydateandfuel.ts:145-191 | Because the counter is shared, `k` pages of known URLs followed by a single empty page stop the crawl on the empty-page rule once the counter plus `k` reaches 4. |
| Crawl.KnownPagesStop | first_step_cochescom_bydateandfuel.ts:182-191 | With the counter at `k`, `50 - k` pages of known URLs stop the crawl with the counter at 50 and the table unchanged. |
| Crawl.NewUrlsReachMaxPages | first_step_cochescom_bydateandfuel.ts:122-191 | If every page brings a new URL, the crawl runs until page 500 and stops on the page bound. |
| Crawl.ResumesAtLastPage | first_step_cochescom_bydateandfuel.ts:119-123 | A restart begins at the page the previous run stopped on, not the next one. The exception is a run that stopped on page 0, which is possible only with a hand-edited negative checkpoint: the saved "0" reads as 1 (`0 || 1`), so the restart begins at page 1. |
| Crawl.FiveEmptyPages | first_step_cochescom_bydateandfuel.ts:122-155 | From a zero counter, five empty pages stop the crawl on the fifth. The table is unchanged, and the fifth page's number is left in the progress file. |
| Crawl.NewPageThenEmptyStreak | first_step_cochescom_bydateandfuel.ts:122-191 | A page with a new URL followed by five empty pages: six pages are visited, the empty-page rule stops the crawl, the table gains the first page's URLs and the progress file names the sixth page. |
| Crawl.FirstPageThenEmptyStreak | first_step_cochescom_bydateandfuel.ts:118-194 | Start with no progress file and an empty table; page 1 has listings and the next five pages are empty. The crawl visits pages 1 to 6, stops on the empty streak, stores one row per distinct URL of page 1 and leaves "6" in the progress file. |
| Supervisor.Outcome | first_step_cochescom_bydateandfuel.ts:195-201 | A call of the crawl throws exactly when its set-up or its clean-up fails. How the page loop ended plays no part. |
| Supervisor.OutcomeIgnoresRun | first_step_cochescom_bydateandfuel.ts:195-196 | Changing how the page loop ended never changes whether the call throws. |
| Supervisor.StartScrapingWithRetries | first_step_cochescom_bydateandfuel.ts:204-221 | No call is made when `maxRetries <= 0`, otherwise at most `maxRetries`. Calls are separated by the cool-down pause, with none after the last. It stops after the first call that does not throw, and after `maxRetries` throwing calls it gives up without rethrowing. |

## Left out

- The browser (puppeteer launch, tab set-up, page navigation, reading `__NEXT_DATA__` inside the page) is not modelled. A page visit is an input outcome: the listings found, an empty list when there is no data or it cannot be parsed, or a load that failed after its retries.
- `humanDelay` is a random pause with no effect on the crawl's state, so it is not modelled.
- The command-line arguments and their defaults (fuel `gasolina`, years 1950 to 2015) are not modelled; a `Target` is a parameter. The progress-file name and the database path built from them are not modelled either.
- File-system and database I/O are not modelled. The progress file is an `Option<string>` cell, and `None` stands for a missing or unreadable file. The table is a map. The SQLite engine, the `collection_date` default and closing the handles are not modelled.
- Logging (`console.log`, `console.warn`, `console.error`) is not modelled.
- `listingsPerPage` is declared in the source but never used, so it is not modelled.
- `versionSlug` is computed in the source but never used, so it is not modelled.
- `Slug.Normalizer`: the Unicode decomposition tables behind `normalize("NFD")` are not modelled. The decomposition is a parameter, and the model relies only on its leaving ASCII text alone.
- `Slug.LowerAscii`: `toLowerCase` is modelled on ASCII letters only. After decomposition, a letter outside ASCII whose case mapping differs is outside ASCII in both cases, so the `\w` filter drops it either way.
- Characters are Unicode scalar values, whereas JavaScript strings are UTF-16 code units. This does not matter for the ASCII logic modelled here.
- `JsText.ShowInt`: page numbers are exact integers, whereas JavaScript numbers are doubles. From 10^21 in magnitude, `String` switches to exponent form, which `parseInt` reads back as its leading digits: a saved page of -10^21 reloads as -1. Above 2^53 in magnitude, `currentPage++` can leave the page unchanged. Neither is modelled. Both can arise only from a hand-edited progress file, because the crawl stops after page 500.
- `JsText.ParseInt` works on exact integers. It does not model the rounding of very long digit runs to a double. A `-0` result is folded into 0; both are falsy, so `loadProgress` gives 1 either way.
- Listing fields are modelled as strings, with the power as an optional integer. A record missing `make`, `model`, `version`, `engine` or `currentProvince` makes the source throw a TypeError inside the loop. That error is caught like a failed page load, but it is not modelled as a separate outcome. A string-valued power, or a power that is `NaN`, is not modelled.
- The `finally` clean-up (closing the browser and the database) appears only as the `cleanup` outcome of `Supervisor.Invocation`. If set-up fails after the browser was launched, the source leaves the browser open; that is not modelled.
- `Supervisor.StartScrapingWithRetries` takes the pause length and the call limit as parameters; `MaxRetries` and `CooldownMs` hold the source's defaults. Likewise `Retry.GotoWithRetries`; `PageLoadRetries` and `PageLoadDelayMs` hold its defaults of 3 attempts and 5000 ms.
- `Crawl.Run` stops with `InputExhausted` when the model runs out of page outcomes. This is not a stopping rule of the crawler; it only bounds the input.

=== FILE: checkpoint.dfy ===
/** The progress file of one crawl target: a single cell holding the text of
    the page last started. A missing or unreadable file is `None`. */
module Checkpoint {
  import opened Wrappers
  import opened JsText

  /** `saveProgress`: the file is overwritten with `String(page)`. */
  function SaveProgress(page: int): Option<string> {
    Some(ShowInt(page))
  }

  /** `loadProgress`: `parseInt(text) || 1`, and 1 when reading fails. NaN and
      zero are falsy, every other integer, negative ones included, passes. */
  function LoadProgress(file: Option<string>): (page: int)
    ensures page != 0
    ensures file.None? ==> page == 1
    ensures file.Some? && ParseInt(file.value) !in {NaN, Num(0)} ==> ParseInt(file.value) == Num(page)
    ensures file.Some? && ParseInt(file.value) in {NaN, Num(0)} ==> page == 1
  {
    match file
    case None => 1
    case Some(text) =>
      match ParseInt(text)
      case NaN => 1
      case Num(n) => if n == 0 then 1 else n
  }

  /** Loading what was saved gives the page back, except that a saved 0 reads
      as falsy and restarts at page 1. */
  lemma LoadAfterSave(page: int)
    ensures LoadProgress(SaveProgress(page)) == if page == 0 then 1 else page
  {
    ParseShowInt(page, []);
    assert ShowInt(page) + [] == ShowInt(page);
  }

  /** A hand-edited file with surrounding white space or a trailing newline
      still resumes at the page it names. */
  lemma LoadToleratesPadding(ws: string, page: int, rest: string)
    requires All(IsJsSpace, ws)
    requires |rest| == 0 || !IsDecDigit(rest[0])
    requires page != 0
    ensures LoadProgress(Some(ws + ShowInt(page) + rest)) == page
  {
    ParseIntReadsPrefix(ws, page, rest);
  }

  /** Content without any decimal digit falls back to page 1. */
  lemma LoadWithoutDigits(text: string)
    requires forall i | 0 <= i < |text| :: !IsDecDigit(text[i])
    ensures LoadProgress(Some(text)) == 1
  {
    ParseIntNoDigits(text);
  }

  /** `parseInt` also accepts a hexadecimal prefix. */
  lemma LoadHexExample()
    ensures LoadProgress(Some("0x1A")) == 26
  {
    var v := "1A";
    assert DigitRun(v[2..], true) == 0;
    assert DigitRun(v[1..], true) == 1;
    assert v[..1] == "1";
    assert DigitsValue(v[..1], true) == 1;
    assert "0x1A"[2..] == v && v[..2] == v;
    assert ParseMagnitude("0x1A") == Num(26);
    ParseWithoutSign("0x1A");
  }

  /** A bare hexadecimal prefix has no digits: NaN, so page 1. */
  lemma LoadBarePrefixExample()
    ensures LoadProgress(Some("0x")) == 1
  {
    assert "0x"[2..] == [];
    assert ParseMagnitude("0x") == NaN;
    ParseWithoutSign("0x");
  }
}

=== FILE: crawl.dfy ===
/** The page loop of `scrapeCochesCom`: one crawl target, pages visited from
    the saved checkpoint upwards, each listing's URL inserted into the store,
    and a single streak counter deciding when the catalogue is exhausted.
    Rendering is abstract: each visited page yields an outcome from the input. */
module Crawl {
  import opened Wrappers
  import opened JsText
  import opened Checkpoint
  import opened Slug
  import opened Urls
  import opened UrlStore

  const MaxPagesToScrape := 500
  /** Streak length at which an empty page stops the crawl. */
  const EmptyPageLimit := 5
  /** Streak length at which a page without new URLs stops the crawl. */
  const NoNewUrlLimit := 50

  /** What visiting a page produced: the listings found in the page data (an
      empty sequence when there were none or they could not be read), or a
      page load that still failed after its retries. */
  datatype PageOutcome = Rendered(listings: seq<Listing>) | RenderFailed

  /** Observable effects, in order: the checkpoint write, the page load, and
      each insert with whether it reported a change. */
  datatype Event =
    | SavedCheckpoint(page: int)
    | Fetched(page: int, url: string)
    | Inserted(url: string, changed: bool)

  /** Why the loop ended. `RenderAborted` is a page-load error leaving the loop
      through the surrounding `catch`; `InputExhausted` only means the model ran
      out of page outcomes while the crawl would go on. */
  datatype Stop = EmptyPageStreak | NoNewUrlStreak | MaxPagesReached | RenderAborted | InputExhausted

  /** The loop variables (`currentPage` and the shared streak counter) and the
      two cells the loop writes: the progress file and the URL table. */
  datatype State = State(page: int, streak: nat, checkpoint: Option<string>, store: Store)

  datatype Step = Next(state: State, log: seq<Event>) | Halt(state: State, reason: Stop, log: seq<Event>)

  /** The end state, why the loop ended, everything it did, and the pages it
      visited in order. */
  datatype RunResult = RunResult(state: State, reason: Stop, log: seq<Event>, pages: seq<int>)

  /** The row inserted for a listing: its descriptive URL, country "Spain",
      its province name as it is, status "pending". */
  function EntryOf(nfd: Normalizer, l: Listing): Entry {
    Entry(ListingUrl(nfd, l), UrlRecord("pending", "Spain", l.province))
  }

  /** The row builder of the crawler, for a given decomposition. */
  function RowBuilder(nfd: Normalizer): Listing -> Entry {
    l => EntryOf(nfd, l)
  }

  /** What one crawl works with: the target, and how a listing becomes a row.
      The loop is stated for any row builder; `Scrape` uses `RowBuilder`. */
  datatype Config = Config(target: Target, row: Listing -> Entry)

  function Entries(c: Config, ls: seq<Listing>): (es: seq<Entry>)
    ensures |es| == |ls|
    ensures forall i | 0 <= i < |ls| :: es[i] == c.row(ls[i])
  {
    seq(|ls|, i requires 0 <= i < |ls| => c.row(ls[i]))
  }

  /** URLs of a page that the store does not hold yet. */
  function NewUrls(c: Config, store: Store, ls: seq<Listing>): set<string> {
    UrlSet(Entries(c, ls)) - store.Keys
  }

  function InsertLog(es: seq<Entry>, changed: seq<bool>): (log: seq<Event>)
    requires |changed| == |es|
    ensures |log| == |es|
    ensures forall i | 0 <= i < |es| :: log[i] == Inserted(es[i].url, changed[i])
  {
    seq(|es|, i requires 0 <= i < |es| => Inserted(es[i].url, changed[i]))
  }

  // ---------------------------------------------------------------------------
  // Reading a log

  /** The pages whose checkpoint was written, in order. */
  function Visited(log: seq<Event>): seq<int> {
    if |log| == 0 then []
    else (if log[0].SavedCheckpoint? then [log[0].page] else []) + Visited(log[1..])
  }

  /** The number of inserts that reported a change. */
  function ChangedCount(log: seq<Event>): nat {
    if |log| == 0 then 0
    else (if log[0].Inserted? && log[0].changed then 1 else 0) + ChangedCount(log[1..])
  }

  /** Every page load directly follows the checkpoint write of the same page
      and loads that page's URL. */
  ghost predicate CheckpointFirst(c: Config, log: seq<Event>) {
    forall i | 0 <= i < |log| && log[i].Fetched? ::
      i > 0 && log[i - 1] == SavedCheckpoint(log[i].page) && log[i].url == PageUrl(c.target, log[i].page)
  }

  lemma {:induction false} VisitedAppend(a: seq<Event>, b: seq<Event>)
    ensures Visited(a + b) == Visited(a) + Visited(b)
  {
    if |a| == 0 {
      assert a + b == b;
    } else {
      var first := if a[0].SavedCheckpoint? then [a[0].page] else [];
      assert (a + b)[0] == a[0];
      assert (a + b)[1..] == a[1..] + b;
      assert Visited(a + b) == first + Visited(a[1..] + b);
      VisitedAppend(a[1..], b);
      assert Visited(a) == first + Visited(a[1..]);
    }
  }

  lemma {:induction false} ChangedCountAppend(a: seq<Event>, b: seq<Event>)
    ensures ChangedCount(a + b) == ChangedCount(a) + ChangedCount(b)
  {
    if |a| == 0 {
      assert a + b == b;
    } else {
      assert (a + b)[1..] == a[1..] + b;
      ChangedCountAppend(a[1..], b);
    }
  }

  lemma {:induction false} InsertLogCounts(es: seq<Entry>, changed: seq<bool>)
    requires |changed| == |es|
    ensures Visited(InsertLog(es, changed)) == []
    ensures ChangedCount(InsertLog(es, changed)) == CountTrue(changed)
  {
    if |es| > 0 {
      InsertLogCounts(es[1..], changed[1..]);
      assert InsertLog(es, changed)[1..] == InsertLog(es[1..], changed[1..]);
    }
  }

  lemma CheckpointFirstAppend(c: Config, a: seq<Event>, b: seq<Event>)
    requires CheckpointFirst(c, a) && CheckpointFirst(c, b)
    requires |b| > 0 ==> !b[0].Fetched?
    ensures CheckpointFirst(c, a + b)
  {
    forall i | 0 <= i < |a + b| && (a + b)[i].Fetched?
      ensures i > 0 && (a + b)[i - 1] == SavedCheckpoint((a + b)[i].page)
    {
      if i >= |a| {
        assert (a + b)[i] == b[i - |a|];
        assert (a + b)[i - 1] == b[i - 1 - |a|];
      }
    }
  }

  // ---------------------------------------------------------------------------
  // One iteration of the loop

  /** One pass of the loop body for `s.page`, which the loop guard keeps at
      most `MaxPagesToScrape`. */
  function PageStep(c: Config, s: State, o: PageOutcome): (r: Step)
    requires s.page <= MaxPagesToScrape
    // the checkpoint is written whatever happens next
    ensures r.state.checkpoint == SaveProgress(s.page)
    // the page advances by one unless the loop is left
    ensures r.Next? ==> r.state.page == s.page + 1
    ensures r.Halt? ==> r.state.page == s.page && r.reason != MaxPagesReached && r.reason != InputExhausted
  {
    var s1 := s.(checkpoint := SaveProgress(s.page));
    var head := PageHead(c, s.page);
    match o
    case RenderFailed => Halt(s1, RenderAborted, head)
    case Rendered(ls) =>
      if |ls| == 0 then
        var streak := s.streak + 1;
        if streak >= EmptyPageLimit then Halt(s1.(streak := streak), EmptyPageStreak, head)
        else Next(s1.(page := s.page + 1, streak := streak), head)
      else
        ListingPageEffects(c, s1, ls);
        ListingPage(c, s1, head, ls)
  }

  /** The shared counter: a failed load leaves the loop; an empty page bumps
      the counter and stops the loop once it reaches 5; a page with a new URL
      resets it; a page whose URLs are all known bumps it and stops the loop
      once it reaches 50. */
  lemma PageStepCounter(c: Config, s: State, o: PageOutcome)
    requires s.page <= MaxPagesToScrape
    ensures var r := PageStep(c, s, o);
            && (o.RenderFailed? ==> r.Halt? && r.reason == RenderAborted && r.state.streak == s.streak)
            && (o == Rendered([]) ==>
                  && r.state.streak == s.streak + 1
                  && (r.Halt? <==> s.streak + 1 >= EmptyPageLimit)
                  && (r.Halt? ==> r.reason == EmptyPageStreak))
            && (o.Rendered? && |o.listings| > 0 && NewUrls(c, s.store, o.listings) != {} ==>
                  r.Next? && r.state.streak == 0)
            && (o.Rendered? && |o.listings| > 0 && NewUrls(c, s.store, o.listings) == {} ==>
                  && r.state.streak == s.streak + 1
                  && (r.Halt? <==> s.streak + 1 >= NoNewUrlLimit)
                  && (r.Halt? ==> r.reason == NoNewUrlStreak))
  {
  }

  /** The log of one pass: the checkpoint write, then the load of the page's
      URL, then only inserts, none of them for a failed or empty page. */
  lemma PageStepLog(c: Config, s: State, o: PageOutcome)
    requires s.page <= MaxPagesToScrape
    ensures var r := PageStep(c, s, o);
            && |r.log| >= 2
            && r.log[0] == SavedCheckpoint(s.page) && r.log[1] == Fetched(s.page, PageUrl(c.target, s.page))
            && (forall i | 2 <= i < |r.log| :: r.log[i].Inserted?)
            && (o.RenderFailed? || o == Rendered([]) ==> |r.log| == 2)
            && Visited(r.log) == [s.page]
            && CheckpointFirst(c, r.log)
  {
    var s1 := s.(checkpoint := SaveProgress(s.page));
    if o.Rendered? && |o.listings| > 0 {
      ListingPageEffects(c, s1, o.listings);
    }
  }

  /** What one pass writes to the table: nothing for a failed or empty page;
      otherwise the page's URLs are added, old rows stay as they were, and each
      reported change is one new row, one per new distinct URL. */
  lemma PageStepStore(c: Config, s: State, o: PageOutcome)
    requires s.page <= MaxPagesToScrape
    ensures var r := PageStep(c, s, o);
            && (o.RenderFailed? || o == Rendered([]) ==> r.state.store == s.store)
            && (o.Rendered? ==> r.state.store.Keys == s.store.Keys + UrlSet(Entries(c, o.listings)))
            && (forall u | u in s.store :: u in r.state.store && r.state.store[u] == s.store[u])
            && |r.state.store| == |s.store| + ChangedCount(r.log)
            && ChangedCount(r.log) == if o.Rendered? then |NewUrls(c, s.store, o.listings)| else 0
  {
    var s1 := s.(checkpoint := SaveProgress(s.page));
    if o.Rendered? && |o.listings| > 0 {
      ListingPageEffects(c, s1, o.listings);
      InsertAllMeetsSpec(s.store, Entries(c, o.listings));
    } else if o.Rendered? {
      assert UrlSet(Entries(c, o.listings)) == {};
    }
  }

  /** The log of a visit before any insert: the checkpoint write, then the page load. */
  function PageHead(c: Config, page: int): (log: seq<Event>)
    ensures |log| == 2 && log[0] == SavedCheckpoint(page) && log[1] == Fetched(page, PageUrl(c.target, page))
    ensures Visited(log) == [page] && ChangedCount(log) == 0
    ensures CheckpointFirst(c, log)
  {
    var log := [SavedCheckpoint(page), Fetched(page, PageUrl(c.target, page))];
    assert log[1..][1..] == [];
    assert Visited(log[1..]) == [] + Visited(log[1..][1..]);
    assert ChangedCount(log[1..]) == 0 + ChangedCount(log[1..][1..]);
    log
  }

  /** The rest of the loop body for a page with listings: insert each
      listing's row, then reset or bump the shared counter. */
  function ListingPage(c: Config, s: State, head: seq<Event>, ls: seq<Listing>): (r: Step)
    requires |ls| > 0
    ensures r.log == head + InsertLog(Entries(c, ls), InsertAll(s.store, Entries(c, ls)).changed)
    ensures r.state.checkpoint == s.checkpoint
    ensures r.Next? ==> r.state.page == s.page + 1
    ensures r.Halt? ==> r.state.page == s.page && r.reason == NoNewUrlStreak
    ensures NewUrls(c, s.store, ls) != {} ==> r.Next? && r.state.streak == 0
    ensures NewUrls(c, s.store, ls) == {} ==>
              && r.state.streak == s.streak + 1
              && (r.Halt? <==> s.streak + 1 >= NoNewUrlLimit)
    ensures r.state.store == InsertAll(s.store, Entries(c, ls)).store
  {
    var es := Entries(c, ls);
    var b := InsertAll(s.store, es);
    InsertAllMeetsSpec(s.store, es);
    var log := head + InsertLog(es, b.changed);
    if CountTrue(b.changed) > 0 then Next(s.(page := s.page + 1, streak := 0, store := b.store), log)
    else
      var streak := s.streak + 1;
      if streak >= NoNewUrlLimit then Halt(s.(streak := streak, store := b.store), NoNewUrlStreak, log)
      else Next(s.(page := s.page + 1, streak := streak, store := b.store), log)
  }

  /** What the inserts of a page with listings add to the log and the store. */
  lemma ListingPageEffects(c: Config, s: State, ls: seq<Listing>)
    requires |ls| > 0
    ensures var es := Entries(c, ls);
            var b := InsertAll(s.store, es);
            var log := PageHead(c, s.page) + InsertLog(es, b.changed);
            && Visited(log) == [s.page]
            && ChangedCount(log) == |b.store| - |s.store| == |NewUrls(c, s.store, ls)|
            && CheckpointFirst(c, log)
            && (forall i | 2 <= i < |log| :: log[i].Inserted?)
  {
    var es := Entries(c, ls);
    var b := InsertAll(s.store, es);
    InsertAllMeetsSpec(s.store, es);
    InsertLogEffects(c, PageHead(c, s.page), es, b.changed);
  }

  lemma InsertLogEffects(c: Config, head: seq<Event>, es: seq<Entry>, changed: seq<bool>)
    requires |changed| == |es|
    requires CheckpointFirst(c, head)
    ensures var log := head + InsertLog(es, changed);
            && Visited(log) == Visited(head)
            && ChangedCount(log) == ChangedCount(head) + CountTrue(changed)
            && CheckpointFirst(c, log)
            && (forall i | |head| <= i < |log| :: log[i].Inserted?)
  {
    var ins := InsertLog(es, changed);
    InsertLogCounts(es, changed);
    VisitedAppend(head, ins);
    ChangedCountAppend(head, ins);
    assert Visited(head) + [] == Visited(head);
    assert CheckpointFirst(c, ins);
    CheckpointFirstAppend(c, head, ins);
  }

  // ---------------------------------------------------------------------------
  // The loop

  /** The `for` loop from a state at its top, one page outcome per visited page. */
  function Run(c: Config, s: State, outcomes: seq<PageOutcome>): RunResult
    decreases |outcomes|
  {
    if s.page > MaxPagesToScrape then RunResult(s, MaxPagesReached, [], [])
    else if |outcomes| == 0 then RunResult(s, InputExhausted, [], [])
    else
      match PageStep(c, s, outcomes[0])
      case Halt(next, reason, log) => RunResult(next, reason, log, [s.page])
      case Next(next, log) =>
        var rest := Run(c, next, outcomes[1..]);
        RunResult(rest.state, rest.reason, log + rest.log, [s.page] + rest.pages)
  }

  /** One run of `scrapeCochesCom`'s loop: the first page comes from the
      progress file and the counter starts at zero. */
  function Scrape(nfd: Normalizer, t: Target, checkpoint: Option<string>, store: Store, outcomes: seq<PageOutcome>): RunResult {
    Run(Config(t, RowBuilder(nfd)), State(LoadProgress(checkpoint), 0, checkpoint, store), outcomes)
  }

  /** A run that starts past the page bound or without outcomes does nothing. */
  lemma RunEnds(c: Config, s: State, outcomes: seq<PageOutcome>)
    requires s.page > MaxPagesToScrape || |outcomes| == 0
    ensures Run(c, s, outcomes).state == s && Run(c, s, outcomes).log == [] && Run(c, s, outcomes).pages == []
    ensures Run(c, s, outcomes).reason == if s.page > MaxPagesToScrape then MaxPagesReached else InputExhausted
  {
  }

  /** A run whose first page continues is that page followed by the run from
      the next state. */
  lemma RunThroughPage(c: Config, s: State, outcomes: seq<PageOutcome>)
    requires s.page <= MaxPagesToScrape && |outcomes| > 0
    requires PageStep(c, s, outcomes[0]).Next?
    ensures var next := PageStep(c, s, outcomes[0]).state;
            var rest := Run(c, next, outcomes[1..]);
            var r := Run(c, s, outcomes);
            && r.state == rest.state && r.reason == rest.reason
            && r.pages == [s.page] + rest.pages
            && r.log == PageStep(c, s, outcomes[0]).log + rest.log
  {
  }

  /** A run whose first page stops the loop is just that page. */
  lemma RunStopsAtPage(c: Config, s: State, outcomes: seq<PageOutcome>)
    requires s.page <= MaxPagesToScrape && |outcomes| > 0
    requires PageStep(c, s, outcomes[0]).Halt?
    ensures var step := PageStep(c, s, outcomes[0]);
            var r := Run(c, s, outcomes);
            && r.state == step.state && r.reason == step.reason
            && r.pages == [s.page] && r.log == step.log
  {
  }

  /** The state after a page that neither stops the loop nor brings a new URL:
      the checkpoint written, the page advanced, the counter bumped. */
  function Bumped(s: State): (r: State)
    ensures r.page == s.page + 1 && r.streak == s.streak + 1 && r.store == s.store
  {
    s.(page := s.page + 1, streak := s.streak + 1, checkpoint := SaveProgress(s.page))
  }

  /** A run whose first page moves on to the bumped state. */
  lemma RunBumped(c: Config, s: State, outcomes: seq<PageOutcome>)
    requires s.page <= MaxPagesToScrape && |outcomes| > 0
    requires PageStep(c, s, outcomes[0]).Next? && PageStep(c, s, outcomes[0]).state == Bumped(s)
    ensures var r := Run(c, s, outcomes);
            var rest := Run(c, Bumped(s), outcomes[1..]);
            && r.state == rest.state && r.reason == rest.reason
            && r.pages == [s.page] + rest.pages
  {
    RunThroughPage(c, s, outcomes);
  }

  /** The pages a run reports are exactly the checkpoint writes in its log. */
  lemma {:induction false} RunLogsItsPages(c: Config, s: State, outcomes: seq<PageOutcome>)
    ensures Visited(Run(c, s, outcomes).log) == Run(c, s, outcomes).pages
    decreases |outcomes|
  {
    if s.page > MaxPagesToScrape || |outcomes| == 0 {
      RunEnds(c, s, outcomes);
    } else {
      var step := PageStep(c, s, outcomes[0]);
      PageStepLog(c, s, outcomes[0]);
      if step.Halt? {
        RunStopsAtPage(c, s, outcomes);
      } else {
        var rest := Run(c, step.state, outcomes[1..]);
        RunThroughPage(c, s, outcomes);
        RunLogsItsPages(c, step.state, outcomes[1..]);
        VisitedAppend(step.log, rest.log);
      }
    }
  }

  /** Pages are visited one after another from the starting page, none above
      `MaxPagesToScrape`. */
  lemma {:induction false} RunVisitsPagesInOrder(c: Config, s: State, outcomes: seq<PageOutcome>)
    ensures var v := Run(c, s, outcomes).pages;
            && |v| <= |outcomes|
            && (forall i | 0 <= i < |v| :: v[i] == s.page + i && v[i] <= MaxPagesToScrape)
    decreases |outcomes|
  {
    if s.page <= MaxPagesToScrape && |outcomes| > 0 {
      var step := PageStep(c, s, outcomes[0]);
      if step.Next? {
        var w := Run(c, step.state, outcomes[1..]).pages;
        RunVisitsPagesInOrder(c, step.state, outcomes[1..]);
        var v := Run(c, s, outcomes).pages;
        assert v == [s.page] + w;
        forall i | 0 <= i < |v| ensures v[i] == s.page + i && v[i] <= MaxPagesToScrape {
          if i > 0 {
            assert v[i] == w[i - 1];
          }
        }
      }
    }
  }

  /** So a run visits at most `501 - start` pages. */
  lemma IterationBound(c: Config, s: State, outcomes: seq<PageOutcome>)
    ensures |Run(c, s, outcomes).pages|
            <= (if s.page > MaxPagesToScrape then 0 else MaxPagesToScrape + 1 - s.page)
  {
    RunVisitsPagesInOrder(c, s, outcomes);
    var v := Run(c, s, outcomes).pages;
    if |v| > 0 {
      assert v[|v| - 1] == s.page + |v| - 1;
    }
  }

  /** The loop reports `MaxPagesReached` exactly when the page passed the
      bound; a streak or a failed load leaves it at the last page visited, which
      is not advanced. */
  lemma {:induction false} RunStopsWhereItSays(c: Config, s: State, outcomes: seq<PageOutcome>)
    ensures var r := Run(c, s, outcomes);
            var v := r.pages;
            && (r.reason == MaxPagesReached <==> r.state.page > MaxPagesToScrape)
            && (r.reason in {MaxPagesReached, InputExhausted} ==> r.state.page == s.page + |v|)
            && (r.reason !in {MaxPagesReached, InputExhausted} ==> |v| > 0 && r.state.page == v[|v| - 1])
    decreases |outcomes|
  {
    if s.page > MaxPagesToScrape || |outcomes| == 0 {
      RunEnds(c, s, outcomes);
    } else {
      var step := PageStep(c, s, outcomes[0]);
      if step.Halt? {
        RunStopsAtPage(c, s, outcomes);
      } else {
        var w := Run(c, step.state, outcomes[1..]).pages;
        RunThroughPage(c, s, outcomes);
        RunStopsWhereItSays(c, step.state, outcomes[1..]);
        var v := Run(c, s, outcomes).pages;
        assert |v| == |w| + 1;
        if |w| > 0 {
          assert v[|v| - 1] == w[|w| - 1];
        }
      }
    }
  }

  /** The checkpoint of a page is written immediately before that page is
      loaded, and the page loaded is the one the checkpoint names. */
  lemma {:induction false} RunWritesCheckpointFirst(c: Config, s: State, outcomes: seq<PageOutcome>)
    ensures var log := Run(c, s, outcomes).log;
            CheckpointFirst(c, log) && (|log| > 0 ==> log[0].SavedCheckpoint?)
    decreases |outcomes|
  {
    if s.page > MaxPagesToScrape || |outcomes| == 0 {
      RunEnds(c, s, outcomes);
    } else {
      var step := PageStep(c, s, outcomes[0]);
      PageStepLog(c, s, outcomes[0]);
      if step.Halt? {
        RunStopsAtPage(c, s, outcomes);
      } else {
        var rest := Run(c, step.state, outcomes[1..]);
        RunThroughPage(c, s, outcomes);
        RunWritesCheckpointFirst(c, step.state, outcomes[1..]);
        CheckpointFirstAppend(c, step.log, rest.log);
      }
    }
  }

  /** After a run the progress file holds the last page visited. */
  lemma {:induction false} RunLeavesCheckpoint(c: Config, s: State, outcomes: seq<PageOutcome>)
    ensures var r := Run(c, s, outcomes);
            var v := r.pages;
            r.state.checkpoint == if |v| == 0 then s.checkpoint else SaveProgress(v[|v| - 1])
    decreases |outcomes|
  {
    if s.page > MaxPagesToScrape || |outcomes| == 0 {
      RunEnds(c, s, outcomes);
    } else if PageStep(c, s, outcomes[0]).Halt? {
      RunStopsAtPage(c, s, outcomes);
    } else {
      var step := PageStep(c, s, outcomes[0]);
      RunThroughPage(c, s, outcomes);
      RunLeavesCheckpoint(c, step.state, outcomes[1..]);
      var v := Run(c, step.state, outcomes[1..]).pages;
      if |v| > 0 {
        assert ([s.page] + v)[|v|] == v[|v| - 1];
      }
    }
  }

  /** Rows already stored are never changed, and the store grows by exactly
      the number of inserts that reported a change. */
  lemma {:induction false} RunOnlyAddsRows(c: Config, s: State, outcomes: seq<PageOutcome>)
    ensures var r := Run(c, s, outcomes);
            && (forall u | u in s.store :: u in r.state.store && r.state.store[u] == s.store[u])
            && |r.state.store| == |s.store| + ChangedCount(r.log)
    decreases |outcomes|
  {
    if s.page > MaxPagesToScrape || |outcomes| == 0 {
      RunEnds(c, s, outcomes);
    } else {
      var step := PageStep(c, s, outcomes[0]);
      PageStepStore(c, s, outcomes[0]);
      if step.Halt? {
        RunStopsAtPage(c, s, outcomes);
      } else {
        var rest := Run(c, step.state, outcomes[1..]);
        RunThroughPage(c, s, outcomes);
        RunOnlyAddsRows(c, step.state, outcomes[1..]);
        ChangedCountAppend(step.log, rest.log);
      }
    }
  }

  // ---------------------------------------------------------------------------
  // Stopping rules over several pages

  /** A page with listings whose URLs the store already holds. */
  predicate AllKnown(c: Config, store: Store, o: PageOutcome) {
    o.Rendered? && |o.listings| > 0 && NewUrls(c, store, o.listings) == {}
  }

  /** A page of known URLs leaves the store as it was. */
  lemma KnownPageKeepsStore(c: Config, s: State, o: PageOutcome)
    requires s.page <= MaxPagesToScrape
    requires AllKnown(c, s.store, o)
    ensures PageStep(c, s, o).state.store == s.store
  {
    PageStepStore(c, s, o);
    var r := PageStep(c, s, o).state.store;
    assert UrlSet(Entries(c, o.listings)) <= s.store.Keys;
    SameRows(s.store, r);
  }

  /** Below the limit, a page of known URLs moves on with the counter bumped. */
  lemma KnownPageContinues(c: Config, s: State, o: PageOutcome)
    requires s.page <= MaxPagesToScrape && s.streak + 1 < NoNewUrlLimit
    requires AllKnown(c, s.store, o)
    ensures PageStep(c, s, o).Next? && PageStep(c, s, o).state == Bumped(s)
  {
    KnownPageKeepsStore(c, s, o);
  }

  /** Two tables with the same URLs and the same row under each are the same table. */
  lemma SameRows(a: Store, b: Store)
    requires a.Keys == b.Keys
    requires forall u | u in a :: b[u] == a[u]
    ensures a == b
  {
  }

  /** Empty pages in a row stop the crawl once the shared counter reaches 5:
      after five of them from a zero counter, and after a single one when the
      counter already stands at 4 or more. Nothing is inserted meanwhile. */
  lemma {:induction false} EmptyPagesStop(c: Config, s: State, outcomes: seq<PageOutcome>)
    requires var n := if s.streak >= EmptyPageLimit - 1 then 1 else EmptyPageLimit - s.streak;
             && s.page + n - 1 <= MaxPagesToScrape
             && |outcomes| >= n
             && forall i | 0 <= i < n :: outcomes[i] == Rendered([])
    ensures var r := Run(c, s, outcomes);
            var n := if s.streak >= EmptyPageLimit - 1 then 1 else EmptyPageLimit - s.streak;
            && r.reason == EmptyPageStreak
            && |r.pages| == n
            && r.state.store == s.store
    decreases EmptyPageLimit - s.streak
  {
    if s.streak + 1 >= EmptyPageLimit {
      EmptyPageAtLimit(c, s, outcomes);
    } else {
      var tail := outcomes[1..];
      EmptyPageContinues(c, s, outcomes[0]);
      forall i | 0 <= i < EmptyPageLimit - s.streak - 1
        ensures tail[i] == Rendered([])
      {
        assert tail[i] == outcomes[i + 1];
      }
      EmptyPagesStop(c, Bumped(s), tail);
      RunBumped(c, s, outcomes);
    }
  }

  /** Below the limit, an empty page moves on with the counter bumped. */
  lemma EmptyPageContinues(c: Config, s: State, o: PageOutcome)
    requires s.page <= MaxPagesToScrape && s.streak + 1 < EmptyPageLimit
    requires o == Rendered([])
    ensures PageStep(c, s, o).Next? && PageStep(c, s, o).state == Bumped(s)
  {
    PageStepStore(c, s, o);
  }

  /** Known pages stay known after the first of them has been visited. */
  lemma KnownTail(c: Config, store: Store, store': Store, outcomes: seq<PageOutcome>, n: nat)
    requires store' == store && 0 < n <= |outcomes|
    requires forall i | 0 <= i < n :: AllKnown(c, store, outcomes[i])
    ensures forall i | 0 <= i < n - 1 :: AllKnown(c, store', outcomes[1..][i])
  {
    forall i | 0 <= i < n - 1
      ensures AllKnown(c, store', outcomes[1..][i])
    {
      assert outcomes[1..][i] == outcomes[i + 1];
    }
  }

  /** An empty page with the counter already at 4 ends the run there. */
  lemma EmptyPageAtLimit(c: Config, s: State, outcomes: seq<PageOutcome>)
    requires s.page <= MaxPagesToScrape && s.streak + 1 >= EmptyPageLimit
    requires |outcomes| > 0 && outcomes[0] == Rendered([])
    ensures var r := Run(c, s, outcomes);
            && r.reason == EmptyPageStreak
            && r.pages == [s.page]
            && r.state.store == s.store
  {
    PageStepStore(c, s, outcomes[0]);
    RunStopsAtPage(c, s, outcomes);
  }

  /** The counter is shared: `k` pages of already-known URLs followed by one
      empty page stop the crawl as soon as the counter plus `k` is at least 4,
      even though only one page was empty. */
  lemma {:induction false} KnownPagesCountTowardEmptyLimit(c: Config, s: State, outcomes: seq<PageOutcome>, k: nat)
    requires s.streak + k >= EmptyPageLimit - 1
    requires s.streak + k < NoNewUrlLimit
    requires s.page + k <= MaxPagesToScrape
    requires |outcomes| > k
    requires forall i | 0 <= i < k :: AllKnown(c, s.store, outcomes[i])
    requires outcomes[k] == Rendered([])
    ensures var r := Run(c, s, outcomes);
            && r.reason == EmptyPageStreak
            && |r.pages| == k + 1
            && r.state.store == s.store
    decreases k
  {
    if k == 0 {
      EmptyPageAtLimit(c, s, outcomes);
    } else {
      KnownPageThenTail(c, s, outcomes, k);
      KnownPagesCountTowardEmptyLimit(c, Bumped(s), outcomes[1..], k - 1);
      RunBumpedKeeps(c, s, outcomes, k);
    }
  }

  /** The first of `k` known pages moves on to the bumped state, from which
      the remaining `k - 1` known pages and the empty page follow. */
  lemma KnownPageThenTail(c: Config, s: State, outcomes: seq<PageOutcome>, k: nat)
    requires 0 < k && s.streak + k < NoNewUrlLimit
    requires s.page + k <= MaxPagesToScrape
    requires |outcomes| > k
    requires forall i | 0 <= i < k :: AllKnown(c, s.store, outcomes[i])
    requires outcomes[k] == Rendered([])
    ensures PageStep(c, s, outcomes[0]).Next? && PageStep(c, s, outcomes[0]).state == Bumped(s)
    ensures forall i | 0 <= i < k - 1 :: AllKnown(c, Bumped(s).store, outcomes[1..][i])
    ensures outcomes[1..][k - 1] == Rendered([])
  {
    KnownPageContinues(c, s, outcomes[0]);
    KnownTail(c, s.store, Bumped(s).store, outcomes, k);
  }

  /** An empty-streak stop after `k` pages from the bumped state is one after
      `k + 1` pages from the state before it. */
  lemma RunBumpedKeeps(c: Config, s: State, outcomes: seq<PageOutcome>, k: nat)
    requires s.page <= MaxPagesToScrape && |outcomes| > 0
    requires PageStep(c, s, outcomes[0]).Next? && PageStep(c, s, outcomes[0]).state == Bumped(s)
    requires var rest := Run(c, Bumped(s), outcomes[1..]);
             rest.reason == EmptyPageStreak && |rest.pages| == k && rest.state.store == s.store
    ensures var r := Run(c, s, outcomes);
            r.reason == EmptyPageStreak && |r.pages| == k + 1 && r.state.store == s.store
  {
    RunBumped(c, s, outcomes);
  }

  /** Pages whose URLs are all known stop the crawl when the shared counter
      reaches 50, the counter never being reset on the way. */
  lemma {:induction false} KnownPagesStop(c: Config, s: State, outcomes: seq<PageOutcome>)
    requires s.streak < NoNewUrlLimit
    requires s.page + (NoNewUrlLimit - s.streak) - 1 <= MaxPagesToScrape
    requires |outcomes| >= NoNewUrlLimit - s.streak
    requires forall i | 0 <= i < NoNewUrlLimit - s.streak :: AllKnown(c, s.store, outcomes[i])
    ensures var r := Run(c, s, outcomes);
            && r.reason == NoNewUrlStreak
            && |r.pages| == NoNewUrlLimit - s.streak
            && r.state.store == s.store
            && r.state.streak == NoNewUrlLimit
    decreases NoNewUrlLimit - s.streak
  {
    if s.streak + 1 >= NoNewUrlLimit {
      KnownPageAtLimit(c, s, outcomes);
    } else {
      KnownPageContinues(c, s, outcomes[0]);
      KnownTail(c, s.store, Bumped(s).store, outcomes, NoNewUrlLimit - s.streak);
      KnownPagesStop(c, Bumped(s), outcomes[1..]);
      RunBumped(c, s, outcomes);
    }
  }

  /** A page of known URLs with the counter already at 49 ends the run there. */
  lemma KnownPageAtLimit(c: Config, s: State, outcomes: seq<PageOutcome>)
    requires s.page <= MaxPagesToScrape && s.streak + 1 >= NoNewUrlLimit
    requires |outcomes| > 0 && AllKnown(c, s.store, outcomes[0])
    ensures var r := Run(c, s, outcomes);
            && r.reason == NoNewUrlStreak
            && r.pages == [s.page]
            && r.state.store == s.store
            && r.state.streak == s.streak + 1
  {
    KnownPageKeepsStore(c, s, outcomes[0]);
    RunStopsAtPage(c, s, outcomes);
  }

  /** Every page brings at least one URL that neither the store nor an
      earlier page held. */
  ghost predicate AlwaysNew(c: Config, keys: set<string>, outcomes: seq<PageOutcome>)
    decreases |outcomes|
  {
    |outcomes| == 0 ||
    (&& outcomes[0].Rendered?
     && UrlSet(Entries(c, outcomes[0].listings)) - keys != {}
     && AlwaysNew(c, keys + UrlSet(Entries(c, outcomes[0].listings)), outcomes[1..]))
  }

  /** When every page brings a new URL, the crawl goes on until page 500 and
      stops with `MaxPagesReached`, never touching page 501. */
  lemma {:induction false} NewUrlsReachMaxPages(c: Config, s: State, outcomes: seq<PageOutcome>)
    requires s.page <= MaxPagesToScrape + 1
    requires |outcomes| >= MaxPagesToScrape + 1 - s.page
    requires AlwaysNew(c, s.store.Keys, outcomes)
    ensures var r := Run(c, s, outcomes);
            && r.reason == MaxPagesReached
            && r.state.page == MaxPagesToScrape + 1
            && |r.pages| == MaxPagesToScrape + 1 - s.page
    decreases |outcomes|
  {
    if s.page > MaxPagesToScrape {
      RunEnds(c, s, outcomes);
    } else {
      var o := outcomes[0];
      NewPageContinues(c, s, o);
      var next := PageStep(c, s, o).state;
      NewUrlsReachMaxPages(c, next, outcomes[1..]);
      RunThroughPage(c, s, outcomes);
    }
  }

  /** A page with a URL the store does not hold moves on with the counter
      reset and the page's URLs added. */
  lemma NewPageContinues(c: Config, s: State, o: PageOutcome)
    requires s.page <= MaxPagesToScrape
    requires o.Rendered? && UrlSet(Entries(c, o.listings)) - s.store.Keys != {}
    ensures var r := PageStep(c, s, o);
            && r.Next? && r.state.page == s.page + 1 && r.state.streak == 0
            && r.state.store.Keys == s.store.Keys + UrlSet(Entries(c, o.listings))
  {
    var u :| u in UrlSet(Entries(c, o.listings)) - s.store.Keys;
    assert |o.listings| > 0;
    PageStepCounter(c, s, o);
    PageStepStore(c, s, o);
  }

  // ---------------------------------------------------------------------------
  // Across runs

  lemma RunStartsAtItsPage(c: Config, s: State, outcomes: seq<PageOutcome>)
    requires s.page <= MaxPagesToScrape && |outcomes| > 0
    ensures var v := Run(c, s, outcomes).pages;
            |v| > 0 && v[0] == s.page
  {
    RunVisitsPagesInOrder(c, s, outcomes);
    var step := PageStep(c, s, outcomes[0]);
    if step.Next? {
    }
  }

  /** A restart resumes at the page the previous run was working on, not the
      one after it: the checkpoint is written before the page is loaded. A
      run whose last page was 0 is the exception: a saved 0 reads as 1. */
  lemma ResumesAtLastPage(c: Config, checkpoint: Option<string>, store: Store,
                          outcomes: seq<PageOutcome>, later: seq<PageOutcome>)
    requires var v := Run(c, State(LoadProgress(checkpoint), 0, checkpoint, store), outcomes).pages;
             |v| > 0
    requires |later| > 0
    ensures var r := Run(c, State(LoadProgress(checkpoint), 0, checkpoint, store), outcomes);
            var v := r.pages;
            var s2 := State(LoadProgress(r.state.checkpoint), 0, r.state.checkpoint, r.state.store);
            var w := Run(c, s2, later).pages;
            |w| > 0 && w[0] == (if v[|v| - 1] == 0 then 1 else v[|v| - 1])
  {
    var s := State(LoadProgress(checkpoint), 0, checkpoint, store);
    var r := Run(c, s, outcomes);
    var v := r.pages;
    var last := v[|v| - 1];
    RunLeavesCheckpoint(c, s, outcomes);
    RunVisitsPagesInOrder(c, s, outcomes);
    assert r.state.checkpoint == SaveProgress(last);
    LoadAfterSave(last);
    var s2 := State(LoadProgress(r.state.checkpoint), 0, r.state.checkpoint, r.state.store);
    assert s2.page == (if last == 0 then 1 else last) && s2.page <= MaxPagesToScrape;
    RunStartsAtItsPage(c, s2, later);
  }

  /** A page bringing new URLs followed by five empty pages: the counter is
      reset by the first page and the fifth empty page stops the run, with the
      first page's URLs stored and the last empty page in the progress file. */
  lemma NewPageThenEmptyStreak(c: Config, s: State, ls: seq<Listing>, outcomes: seq<PageOutcome>)
    requires s.page + 5 <= MaxPagesToScrape
    requires |ls| > 0 && NewUrls(c, s.store, ls) != {}
    requires |outcomes| == 6 && outcomes[0] == Rendered(ls)
    requires forall i | 1 <= i < 6 :: outcomes[i] == Rendered([])
    ensures var r := Run(c, s, outcomes);
            && r.reason == EmptyPageStreak
            && |r.pages| == 6
            && r.state.store.Keys == s.store.Keys + UrlSet(Entries(c, ls))
            && r.state.checkpoint == SaveProgress(s.page + 5)
  {
    NewPageThenEmptyStreakStops(c, s, ls, outcomes);
    NewPageThenEmptyStreakStore(c, s, ls, outcomes);
  }

  /** How the run of `NewPageThenEmptyStreak` ends. */
  lemma NewPageThenEmptyStreakStops(c: Config, s: State, ls: seq<Listing>, outcomes: seq<PageOutcome>)
    requires s.page + 5 <= MaxPagesToScrape
    requires |ls| > 0 && NewUrls(c, s.store, ls) != {}
    requires |outcomes| == 6 && outcomes[0] == Rendered(ls)
    requires forall i | 1 <= i < 6 :: outcomes[i] == Rendered([])
    ensures var r := Run(c, s, outcomes);
            && r.reason == EmptyPageStreak
            && |r.pages| == 6
            && r.state.checkpoint == SaveProgress(s.page + 5)
  {
    var step := PageStep(c, s, outcomes[0]);
    NewPageContinues(c, s, outcomes[0]);
    var tail := outcomes[1..];
    EmptyAfterFirst(outcomes);
    FiveEmptyPages(c, step.state, tail);
    assert SaveProgress(step.state.page + 4) == SaveProgress(s.page + 5);
    RunAfterFirstPage(c, s, outcomes, EmptyPageStreak, 5, SaveProgress(s.page + 5));
  }

  /** Five empty pages after the first one are five empty pages from the second on. */
  lemma EmptyAfterFirst(outcomes: seq<PageOutcome>)
    requires |outcomes| == 6 && forall i | 1 <= i < 6 :: outcomes[i] == Rendered([])
    ensures |outcomes[1..]| == 5 && forall i | 0 <= i < 5 :: outcomes[1..][i] == Rendered([])
  {
    forall i | 0 <= i < 5
      ensures outcomes[1..][i] == Rendered([])
    {
      assert outcomes[1..][i] == outcomes[i + 1];
    }
  }

  /** A run whose first page moves on ends as the run from the next state
      does, with one page more. */
  lemma RunAfterFirstPage(c: Config, s: State, outcomes: seq<PageOutcome>,
                          reason: Stop, n: nat, checkpoint: Option<string>)
    requires s.page <= MaxPagesToScrape && |outcomes| > 0
    requires PageStep(c, s, outcomes[0]).Next?
    requires var rest := Run(c, PageStep(c, s, outcomes[0]).state, outcomes[1..]);
             rest.reason == reason && |rest.pages| == n && rest.state.checkpoint == checkpoint
    ensures var r := Run(c, s, outcomes);
            r.reason == reason && |r.pages| == n + 1 && r.state.checkpoint == checkpoint
  {
    RunThroughPage(c, s, outcomes);
  }

  /** What the run of `NewPageThenEmptyStreak` leaves in the table. */
  lemma NewPageThenEmptyStreakStore(c: Config, s: State, ls: seq<Listing>, outcomes: seq<PageOutcome>)
    requires s.page + 5 <= MaxPagesToScrape
    requires |ls| > 0 && NewUrls(c, s.store, ls) != {}
    requires |outcomes| == 6 && outcomes[0] == Rendered(ls)
    requires forall i | 1 <= i < 6 :: outcomes[i] == Rendered([])
    ensures Run(c, s, outcomes).state.store.Keys == s.store.Keys + UrlSet(Entries(c, ls))
  {
    var step := PageStep(c, s, outcomes[0]);
    NewPageContinues(c, s, outcomes[0]);
    var tail := outcomes[1..];
    EmptyAfterFirst(outcomes);
    FiveEmptyPages(c, step.state, tail);
    RunThroughPage(c, s, outcomes);
    var rest := Run(c, step.state, tail);
    assert Run(c, s, outcomes).state.store == rest.state.store == step.state.store;
  }

  /** From a zero counter, five empty pages stop the run on the fifth, whose
      number is left in the progress file. */
  lemma FiveEmptyPages(c: Config, s: State, outcomes: seq<PageOutcome>)
    requires s.streak == 0 && s.page + 4 <= MaxPagesToScrape
    requires |outcomes| == 5 && forall i | 0 <= i < 5 :: outcomes[i] == Rendered([])
    ensures var r := Run(c, s, outcomes);
            && r.reason == EmptyPageStreak
            && |r.pages| == 5
            && r.state.store == s.store
            && r.state.checkpoint == SaveProgress(s.page + 4)
  {
    EmptyPagesStop(c, s, outcomes);
    RunVisitsPagesInOrder(c, s, outcomes);
    RunLeavesCheckpoint(c, s, outcomes);
    var v := Run(c, s, outcomes).pages;
    assert v[4] == s.page + 4;
  }

  lemma NewPageIntoEmptyStore(c: Config, ls: seq<Listing>)
    requires |ls| > 0
    ensures NewUrls(c, map[], ls) == UrlSet(Entries(c, ls)) != {}
  {
    assert Entries(c, ls)[0].url in UrlSet(Entries(c, ls));
  }

  /** No checkpoint yet and an empty store, a first page with listings, then
      five empty pages: the run stops on the empty streak after page 6, having
      stored one row per distinct URL of page 1, with "6" in the progress file. */
  lemma FirstPageThenEmptyStreak(nfd: Normalizer, t: Target, ls: seq<Listing>, outcomes: seq<PageOutcome>)
    requires |ls| > 0
    requires |outcomes| == 6 && outcomes[0] == Rendered(ls)
    requires forall i | 1 <= i < 6 :: outcomes[i] == Rendered([])
    ensures var r := Scrape(nfd, t, None, map[], outcomes);
            && r.reason == EmptyPageStreak
            && |r.pages| == 6
            && (forall i | 0 <= i < 6 :: r.pages[i] == i + 1)
            && |r.state.store| == |UrlSet(Entries(Config(t, RowBuilder(nfd)), ls))|
            && r.state.checkpoint == SaveProgress(6)
  {
    var c := Config(t, RowBuilder(nfd));
    var s := State(LoadProgress(None), 0, None, map[]);
    assert Scrape(nfd, t, None, map[], outcomes) == Run(c, s, outcomes);
    FreshRunThenEmptyStreak(c, ls, outcomes);
  }

  /** `FirstPageThenEmptyStreak` for any row builder. */
  lemma FreshRunThenEmptyStreak(c: Config, ls: seq<Listing>, outcomes: seq<PageOutcome>)
    requires |ls| > 0
    requires |outcomes| == 6 && outcomes[0] == Rendered(ls)
    requires forall i | 1 <= i < 6 :: outcomes[i] == Rendered([])
    ensures var r := Run(c, State(LoadProgress(None), 0, None, map[]), outcomes);
            && r.reason == EmptyPageStreak
            && |r.pages| == 6
            && (forall i | 0 <= i < 6 :: r.pages[i] == i + 1)
            && |r.state.store| == |UrlSet(Entries(c, ls))|
            && r.state.checkpoint == SaveProgress(6)
  {
    var s := State(LoadProgress(None), 0, None, map[]);
    assert s.page == 1;
    NewPageIntoEmptyStore(c, ls);
    NewPageThenEmptyStreak(c, s, ls, outcomes);
    RunVisitsPagesInOrder(c, s, outcomes);
    var r := Run(c, s, outcomes);
    assert |r.state.store| == |r.state.store.Keys|;
  }
}

=== FILE: js_text.dfy ===
/** The JavaScript built-ins the crawler relies on, restricted to what it uses:
    white space as `trim`, `\s` and `parseInt` see it, the `\w` class,
    `String(n)` for integers, and `parseInt(text)` called without a radix. */
module JsText {

  /** ECMAScript WhiteSpace and LineTerminator code points: the set shared by
      `String.prototype.trim`, the regular-expression class `\s` and `parseInt`. */
  predicate IsJsSpace(c: char) {
    var n := c as int;
    || n == 0x09 || n == 0x0A || n == 0x0B || n == 0x0C || n == 0x0D || n == 0x20
    || n == 0xA0 || n == 0x1680 || 0x2000 <= n <= 0x200A || n == 0x2028 || n == 0x2029
    || n == 0x202F || n == 0x205F || n == 0x3000 || n == 0xFEFF
  }

  predicate IsDecDigit(c: char) { '0' <= c <= '9' }

  predicate IsHexDigit(c: char) { IsDecDigit(c) || 'a' <= c <= 'f' || 'A' <= c <= 'F' }

  /** The regular-expression class `\w` without the `u` flag: ASCII only. */
  predicate IsWordChar(c: char) { 'a' <= c <= 'z' || 'A' <= c <= 'Z' || IsDecDigit(c) || c == '_' }

  predicate All(P: char -> bool, s: string) {
    forall i | 0 <= i < |s| :: P(s[i])
  }

  /** The characters of `s` that satisfy `P`, in order. */
  function Filter(P: char -> bool, s: string): (r: string)
    ensures |r| <= |s|
    ensures All(P, r)
    ensures forall c | c in r :: c in s
  {
    if |s| == 0 then [] else (if P(s[0]) then [s[0]] else []) + Filter(P, s[1..])
  }

  lemma {:induction false} FilterAppend(P: char -> bool, a: string, b: string)
    ensures Filter(P, a + b) == Filter(P, a) + Filter(P, b)
  {
    if |a| == 0 {
      assert a + b == b;
    } else {
      var head := if P(a[0]) then [a[0]] else [];
      assert (a + b)[0] == a[0];
      assert (a + b)[1..] == a[1..] + b;
      assert Filter(P, a + b) == head + Filter(P, a[1..] + b);
      FilterAppend(P, a[1..], b);
      assert Filter(P, a) == head + Filter(P, a[1..]);
    }
  }

  lemma {:induction false} FilterKeepsAll(P: char -> bool, s: string)
    requires All(P, s)
    ensures Filter(P, s) == s
  {
    if |s| > 0 {
      FilterKeepsAll(P, s[1..]);
    }
  }

  lemma {:induction false} FilterDropsAll(P: char -> bool, s: string)
    requires forall i | 0 <= i < |s| :: !P(s[i])
    ensures Filter(P, s) == []
  {
    if |s| > 0 {
      FilterDropsAll(P, s[1..]);
    }
  }

  /** `String.prototype.trimStart`: drop the longest all-space prefix. */
  function TrimStart(s: string): (r: string)
    ensures |r| <= |s| && r == s[|s| - |r|..]
    ensures All(IsJsSpace, s[..|s| - |r|])
    ensures |r| == 0 || !IsJsSpace(r[0])
  {
    if |s| > 0 && IsJsSpace(s[0]) then TrimStart(s[1..]) else s
  }

  /** `String.prototype.trimEnd`: drop the longest all-space suffix. */
  function TrimEnd(s: string): (r: string)
    ensures |r| <= |s| && r == s[..|r|]
    ensures All(IsJsSpace, s[|r|..])
    ensures |r| == 0 || !IsJsSpace(r[|r| - 1])
  {
    if |s| > 0 && IsJsSpace(s[|s| - 1]) then
      var p := s[..|s| - 1];
      var r := TrimEnd(p);
      assert All(IsJsSpace, s[|r|..]) by {
        forall i | 0 <= i < |s| - |r|
          ensures IsJsSpace(s[|r|..][i])
        {
          if i < |p| - |r| {
            assert s[|r|..][i] == p[|r|..][i];
          }
        }
      }
      r
    else s
  }

  /** `String.prototype.trim`. */
  function Trim(s: string): string {
    TrimEnd(TrimStart(s))
  }

  lemma {:induction false} TrimStartSkips(ws: string, s: string)
    requires All(IsJsSpace, ws)
    requires |s| == 0 || !IsJsSpace(s[0])
    ensures TrimStart(ws + s) == s
  {
    if |ws| == 0 {
      assert ws + s == s;
    } else {
      assert (ws + s)[0] == ws[0];
      assert (ws + s)[1..] == ws[1..] + s;
      TrimStartSkips(ws[1..], s);
    }
  }

  // ---------------------------------------------------------------------------
  // String(n) for an integer n

  function DigitChar(d: nat): (c: char)
    requires d < 10
    ensures IsDecDigit(c)
  {
    (48 + d) as char
  }

  /** Decimal rendering of a natural number, without leading zeros. */
  function ShowNat(n: nat): (r: string)
    ensures |r| > 0 && All(IsDecDigit, r)
    ensures |r| > 1 ==> r[0] != '0'
    ensures n > 0 ==> r[0] != '0'
  {
    if n < 10 then [DigitChar(n)] else ShowNat(n / 10) + [DigitChar(n % 10)]
  }

  /** `String(n)` for an integer-valued number. */
  function ShowInt(n: int): (r: string)
    ensures |r| > 0 && (r[0] == '-' || IsDecDigit(r[0]))
  {
    if n < 0 then "-" + ShowNat(-n) else ShowNat(n)
  }

  // ---------------------------------------------------------------------------
  // parseInt(text), no radix argument

  /** A JavaScript number as `parseInt` can produce it: NaN or an integer.
      The sign of a negative zero is not kept; both zeros are falsy. */
  datatype Parsed = NaN | Num(value: int)

  predicate IsRadixDigit(c: char, hex: bool) {
    if hex then IsHexDigit(c) else IsDecDigit(c)
  }

  predicate AllRadix(ds: string, hex: bool) {
    forall i | 0 <= i < |ds| :: IsRadixDigit(ds[i], hex)
  }

  function DigitValue(c: char): (d: nat)
    requires IsHexDigit(c)
    ensures d < 16
    ensures IsDecDigit(c) ==> d < 10
  {
    if IsDecDigit(c) then c as int - '0' as int
    else if 'a' <= c <= 'f' then c as int - 'a' as int + 10
    else c as int - 'A' as int + 10
  }

  /** The value of a run of digits, most significant first. */
  function DigitsValue(ds: string, hex: bool): nat
    requires AllRadix(ds, hex)
  {
    if |ds| == 0 then 0
    else if hex then DigitsValue(ds[..|ds| - 1], hex) * 16 + DigitValue(ds[|ds| - 1])
    else DigitsValue(ds[..|ds| - 1], hex) * 10 + DigitValue(ds[|ds| - 1])
  }

  /** Length of the longest prefix of `s` made of digits of the radix. */
  function DigitRun(s: string, hex: bool): (n: nat)
    ensures n <= |s|
    ensures AllRadix(s[..n], hex)
    ensures n == |s| || !IsRadixDigit(s[n], hex)
  {
    if |s| == 0 || !IsRadixDigit(s[0], hex) then 0
    else
      var n := 1 + DigitRun(s[1..], hex);
      assert s[..n] == [s[0]] + s[1..][..n - 1];
      n
  }

  /** The part of `parseInt` after the sign: a `0x` or `0X` prefix switches to
      radix 16, then the longest run of digits is read; NaN when it is empty. */
  function ParseMagnitude(u: string): (r: Parsed)
    ensures r.Num? ==> r.value >= 0
  {
    var hex := |u| >= 2 && u[0] == '0' && (u[1] == 'x' || u[1] == 'X');
    var v := if hex then u[2..] else u;
    var n := DigitRun(v, hex);
    if n == 0 then NaN else Num(DigitsValue(v[..n], hex))
  }

  /** `parseInt(text)`: skip leading white space, take an optional sign, then
      read the magnitude. */
  function ParseInt(text: string): Parsed {
    ParseSigned(TrimStart(text))
  }

  /** What `parseInt` reads once the white space is skipped. */
  function ParseSigned(t: string): Parsed {
    if |t| > 0 && (t[0] == '-' || t[0] == '+') then ApplySign(t[0], ParseMagnitude(t[1..]))
    else ParseMagnitude(t)
  }

  function ApplySign(sign: char, p: Parsed): Parsed {
    match p
    case NaN => NaN
    case Num(m) => Num(if sign == '-' then -m else m)
  }

  lemma {:induction false} DigitRunOfDigits(ds: string, rest: string, hex: bool)
    requires AllRadix(ds, hex)
    requires |rest| == 0 || !IsRadixDigit(rest[0], hex)
    ensures DigitRun(ds + rest, hex) == |ds|
  {
    if |ds| > 0 {
      assert (ds + rest)[1..] == ds[1..] + rest;
      DigitRunOfDigits(ds[1..], rest, hex);
    } else {
      assert ds + rest == rest;
    }
  }

  lemma {:induction false} ValueOfShowNat(n: nat)
    ensures AllRadix(ShowNat(n), false)
    ensures DigitsValue(ShowNat(n), false) == n
  {
    var r := ShowNat(n);
    if n >= 10 {
      ValueOfShowNat(n / 10);
      assert r[..|r| - 1] == ShowNat(n / 10);
    }
  }

  /** Leading white space never changes what `parseInt` reads. */
  lemma ParseIntSkipsSpace(ws: string, s: string)
    requires All(IsJsSpace, ws)
    requires |s| == 0 || !IsJsSpace(s[0])
    ensures ParseInt(ws + s) == ParseInt(s)
  {
    TrimStartSkips(ws, s);
    TrimStartKeeps(s);
  }

  /** `rest` ends the number `String(n)` starts: it does not continue the
      digits, and after a lone "0" it does not turn that into a `0x` prefix. */
  predicate EndsNumber(n: int, rest: string) {
    |rest| == 0 || (!IsDecDigit(rest[0]) && (n == 0 ==> rest[0] != 'x' && rest[0] != 'X'))
  }

  /** `parseInt` reads back what `String(n)` wrote, past any leading white
      space and ignoring whatever follows the digits. */
  lemma ParseIntReadsPrefix(ws: string, n: int, rest: string)
    requires All(IsJsSpace, ws)
    requires EndsNumber(n, rest)
    ensures ParseInt(ws + ShowInt(n) + rest) == Num(n)
  {
    var s := ShowInt(n) + rest;
    assert ws + ShowInt(n) + rest == ws + s;
    ParseIntSkipsSpace(ws, s);
    ParseShowInt(n, rest);
  }

  lemma ParseShowInt(n: int, rest: string)
    requires EndsNumber(n, rest)
    ensures ParseInt(ShowInt(n) + rest) == Num(n)
  {
    if n < 0 {
      ParseShowNegative(n, rest);
    } else {
      ParseShowNonNegative(n, rest);
    }
  }

  lemma ParseShowNegative(n: int, rest: string)
    requires n < 0
    requires EndsNumber(n, rest)
    ensures ParseInt(ShowInt(n) + rest) == Num(n)
  {
    var tail := ShowNat(-n) + rest;
    ParseUnsigned(-n, rest);
    ParseNegated(tail, -n);
    SignThenDigits(n, rest);
  }

  lemma SignThenDigits(n: int, rest: string)
    requires n < 0
    ensures ShowInt(n) + rest == ['-'] + (ShowNat(-n) + rest)
  {
    var d := ShowNat(-n);
    assert ShowInt(n) == ['-'] + d;
    assert (['-'] + d) + rest == ['-'] + (d + rest);
  }

  lemma ParseShowNonNegative(n: int, rest: string)
    requires n >= 0
    requires EndsNumber(n, rest)
    ensures ParseInt(ShowInt(n) + rest) == Num(n)
  {
    var s := ShowNat(n) + rest;
    assert s[0] == ShowNat(n)[0];
    ParseUnsigned(n, rest);
    ParseWithoutSign(s);
    assert ShowInt(n) + rest == s;
  }

  lemma {:induction false} ParseAfterSign(sign: char, u: string)
    requires sign == '-' || sign == '+'
    ensures ParseInt([sign] + u) == ApplySign(sign, ParseMagnitude(u))
  {
    var s := [sign] + u;
    assert s[0] == sign && s[1..] == u;
    assert ParseSigned(s) == ApplySign(sign, ParseMagnitude(u));
    TrimStartKeeps(s);
  }

  lemma ParseNegated(u: string, m: int)
    requires ParseMagnitude(u) == Num(m)
    ensures ParseInt(['-'] + u) == Num(-m)
  {
    ParseAfterSign('-', u);
    assert ApplySign('-', Num(m)) == Num(-m);
  }

  lemma ParseWithoutSign(u: string)
    requires |u| > 0 && IsDecDigit(u[0])
    ensures ParseInt(u) == ParseMagnitude(u)
  {
    DigitIsNotSpace(u[0]);
    TrimStartKeeps(u);
    assert ParseSigned(u) == ParseMagnitude(u);
  }

  lemma DigitIsNotSpace(c: char)
    requires IsDecDigit(c)
    ensures !IsJsSpace(c) && c != '-' && c != '+'
  {
  }

  lemma TrimStartKeeps(s: string)
    requires |s| == 0 || !IsJsSpace(s[0])
    ensures TrimStart(s) == s
  {
  }

  /** What `parseInt` does after the sign: an unsigned decimal rendering
      followed by text that ends the number. */
  lemma ParseUnsigned(m: nat, rest: string)
    requires EndsNumber(m, rest)
    ensures ParseMagnitude(ShowNat(m) + rest) == Num(m)
  {
    var d := ShowNat(m);
    var u := d + rest;
    ValueOfShowNat(m);
    DigitRunOfDigits(d, rest, false);
    assert u[..|d|] == d;
    assert u[0] == d[0];
    if |d| == 1 && |rest| > 0 {
      assert u[1] == rest[0];
    }
  }

  /** Text with no decimal digit at all parses to NaN. */
  lemma ParseIntNoDigits(text: string)
    requires forall i | 0 <= i < |text| :: !IsDecDigit(text[i])
    ensures ParseInt(text) == NaN
  {
    var t := TrimStart(text);
    if |t| > 0 {
      assert t[0] == text[|text| - |t|];
    }
    if |t| > 0 && (t[0] == '-' || t[0] == '+') {
      if |t| > 1 {
        assert t[1..][0] == text[|text| - |t| + 1];
      }
      MagnitudeNoDigits(t[1..]);
    } else {
      MagnitudeNoDigits(t);
    }
  }

  /** With no digit to start it, the magnitude is NaN. */
  lemma MagnitudeNoDigits(u: string)
    requires |u| == 0 || !IsDecDigit(u[0])
    ensures ParseMagnitude(u) == NaN
  {
  }
}

=== FILE: retry.dfy ===
/** Bounded retry with a fixed delay, as `gotoWithRetries` does for one page
    load. The shape of its log is shared with the run supervisor. */
module Retry {

  /** The default number of page-load attempts. */
  const PageLoadRetries := 3
  /** The default pause between page-load attempts, in milliseconds. */
  const PageLoadDelayMs := 5000

  /** The outcome of one attempt: it returned, or it threw `error`. */
  datatype Attempt<E> = Succeeded | Failed(error: E)

  /** What a retry loop does, in order: attempt number `n`, or a pause. */
  datatype Event = Try(n: nat) | Wait(ms: nat)

  /** The log of a fixed-delay loop that made `n` attempts: the first attempt,
      then a pause before each further one. */
  function Schedule(n: nat, delayMs: nat): (log: seq<Event>)
    ensures |log| == if n == 0 then 0 else 2 * n - 1
  {
    if n == 0 then [] else if n == 1 then [Try(1)] else Schedule(n - 1, delayMs) + [Wait(delayMs), Try(n)]
  }

  function Waits(log: seq<Event>): nat {
    if |log| == 0 then 0 else (if log[0].Wait? then 1 else 0) + Waits(log[1..])
  }

  lemma {:induction false} WaitsAppend(a: seq<Event>, b: seq<Event>)
    ensures Waits(a + b) == Waits(a) + Waits(b)
  {
    if |a| == 0 {
      assert a + b == b;
    } else {
      assert (a + b)[1..] == a[1..] + b;
      WaitsAppend(a[1..], b);
    }
  }

  /** A loop of `n` attempts pauses `n - 1` times: never before the first
      attempt and never after the last; attempts are numbered 1 to `n` in order. */
  lemma {:induction false} ScheduleShape(n: nat, delayMs: nat)
    ensures n > 0 ==> Waits(Schedule(n, delayMs)) == n - 1
    ensures forall i | 0 <= i < |Schedule(n, delayMs)| ::
              Schedule(n, delayMs)[i] == if i % 2 == 0 then Try(i / 2 + 1) else Wait(delayMs)
  {
    if n > 1 {
      ScheduleShape(n - 1, delayMs);
      WaitsAppend(Schedule(n - 1, delayMs), [Wait(delayMs), Try(n)]);
      var pair := [Wait(delayMs), Try(n)];
      assert pair[1..][1..] == [];
      assert Waits(pair[1..]) == 0;
    }
  }

  /** How a page load ended: `gotoWithRetries` returned, or rethrew `error`. */
  datatype Navigation<E> = Returned | Threw(error: E)

  /** `gotoWithRetries(page, url, retries, delayMs)`: attempt `k` of the page
      load is `goto(k)`. Returns on the first success, pauses between
      attempts only, and rethrows the last error after `retries` failures. With
      `retries <= 0` the loop body never runs and the call returns at once. */
  method GotoWithRetries<E>(goto: nat -> Attempt<E>, retries: int, delayMs: nat)
    returns (r: Navigation<E>, calls: nat, log: seq<Event>)
    ensures calls == 0 <==> retries <= 0
    ensures calls <= retries || calls == 0
    ensures log == Schedule(calls, delayMs)
    ensures forall k | 1 <= k < calls :: goto(k).Failed?
    ensures r.Returned? && calls > 0 ==> goto(calls).Succeeded?
    ensures r.Threw? ==> calls > 0 && calls == retries && goto(calls) == Failed(r.error)
    ensures retries <= 0 ==> r.Returned?
    ensures calls > 0 && goto(calls).Succeeded? ==> r.Returned?
  {
    var attempt := 1;
    calls := 0;
    log := [];
    while attempt <= retries
      invariant 1 <= attempt && calls == attempt - 1
      invariant attempt == 1 || attempt <= retries
      invariant log == if calls == 0 then [] else Schedule(calls, delayMs) + [Wait(delayMs)]
      invariant forall k | 1 <= k < attempt :: goto(k).Failed?
      decreases retries - attempt
    {
      calls := attempt;
      log := log + [Try(attempt)];
      match goto(attempt)
      case Succeeded =>
        r := Returned;
        return;
      case Failed(e) =>
        if attempt < retries {
          log := log + [Wait(delayMs)];
        } else {
          r := Threw(e);
          return;
        }
      attempt := attempt + 1;
    }
    r := Returned;
  }
}

=== FILE: slug.dfy ===
/** `slugify`: the text pipeline that turns a make, model, version or
    province name into a URL path segment. Unicode canonical decomposition
    (`normalize("NFD")`) is a parameter; every step after it is modelled. */
module Slug {
  import opened JsText

  /** `normalize("NFD")`: canonical decomposition, which splits a precomposed
      letter such as `á` into its base letter and a combining mark. */
  type Normalizer = string -> string

  predicate IsAscii(c: char) { c as int < 0x80 }

  /** What the model relies on about decomposition: ASCII text has no
      decomposition, so it is left as it is. */
  ghost predicate KeepsAscii(nfd: Normalizer) {
    forall s | All(IsAscii, s) :: nfd(s) == s
  }

  /** Combining diacritical marks, U+0300 to U+036F, removed after decomposition. */
  predicate IsCombiningMark(c: char) { 0x300 <= c as int <= 0x36F }

  predicate NotMark(c: char) { !IsCombiningMark(c) }

  predicate NotSpace(c: char) { !IsJsSpace(c) }

  predicate IsUpperAscii(c: char) { 'A' <= c <= 'Z' }

  predicate NotUpper(c: char) { !IsUpperAscii(c) }

  /** The characters kept by `replace(/[^\w-]+/g, "")`. */
  predicate IsSlugChar(c: char) { IsWordChar(c) || c == '-' }

  /** What a slug is made of once it has been lower-cased. */
  predicate IsLowerSlugChar(c: char) { 'a' <= c <= 'z' || IsDecDigit(c) || c == '_' || c == '-' }

  predicate NoDoubleDash(s: string) {
    forall i | 0 <= i < |s| - 1 :: !(s[i] == '-' && s[i + 1] == '-')
  }

  /** A well-formed slug: lower-case word characters and single dashes. */
  predicate IsSlug(s: string) {
    All(IsLowerSlugChar, s) && NoDoubleDash(s)
  }

  function LowerChar(c: char): char {
    if IsUpperAscii(c) then (c as int + 32) as char else c
  }

  /** `toLowerCase` on the ASCII letters. */
  function LowerAscii(s: string): (r: string)
    ensures |r| == |s|
    ensures forall i | 0 <= i < |s| :: r[i] == LowerChar(s[i])
  {
    seq(|s|, i requires 0 <= i < |s| => LowerChar(s[i]))
  }

  /** The steps before `trim`: decompose, strip the combining marks, then
      lower-case. */
  function Prepared(nfd: Normalizer, text: string): string {
    LowerAscii(Filter(NotMark, nfd(text)))
  }

  /** `replace(/\s+/g, "-")`: every maximal run of white space becomes one dash. */
  function DashSpaces(s: string): (r: string)
    ensures All(NotSpace, r)
    ensures forall c | c in r :: c in s || c == '-'
    ensures |s| > 0 ==> |r| > 0 && r[0] == (if IsJsSpace(s[0]) then '-' else s[0])
  {
    if |s| == 0 then []
    else if IsJsSpace(s[0]) && |s| > 1 && IsJsSpace(s[1]) then DashSpaces(s[1..])
    else [if IsJsSpace(s[0]) then '-' else s[0]] + DashSpaces(s[1..])
  }

  /** `replace(/--+/g, "-")`: every run of two or more dashes becomes one. */
  function CollapseDashes(s: string): (r: string)
    ensures NoDoubleDash(r)
    ensures forall c | c in r :: c in s
    ensures |s| > 0 ==> |r| > 0 && r[0] == s[0]
  {
    if |s| < 2 then s
    else if s[0] == '-' && s[1] == '-' then CollapseDashes(s[1..])
    else [s[0]] + CollapseDashes(s[1..])
  }

  /** `slugify(text)`, with `nfd` as the decomposition. */
  function Slugify(nfd: Normalizer, text: string): (r: string)
    ensures IsSlug(r)
    ensures Filter(IsWordChar, r) == Filter(IsWordChar, Prepared(nfd, text))
  {
    var p := Prepared(nfd, text);
    var r := CollapseDashes(Filter(IsSlugChar, DashSpaces(Trim(p))));
    PreparedHasNoUpper(nfd, text);
    SlugifyShape(p);
    SlugifyKeepsWords(p);
    r
  }

  // ---------------------------------------------------------------------------
  // Shape of the output

  lemma SlugifyShape(p: string)
    requires All(NotUpper, p)
    ensures IsSlug(CollapseDashes(Filter(IsSlugChar, DashSpaces(Trim(p)))))
  {
    TrimKeepsNotUpper(p);
    DashSpacesKeepsNotUpper(Trim(p));
    var k := Filter(IsSlugChar, DashSpaces(Trim(p)));
    FilterMakesLower(DashSpaces(Trim(p)));
    CollapseStaysIn(IsLowerSlugChar, k);
  }

  lemma TrimKeepsNotUpper(p: string)
    requires All(NotUpper, p)
    ensures All(NotUpper, Trim(p))
  {
    var s := TrimStart(p);
    assert forall i | 0 <= i < |s| :: s[i] == p[|p| - |s| + i];
  }

  lemma DashSpacesKeepsNotUpper(t: string)
    requires All(NotUpper, t)
    ensures All(NotUpper, DashSpaces(t))
  {
    var d := DashSpaces(t);
    forall i | 0 <= i < |d| ensures NotUpper(d[i]) {
      assert d[i] in d;
    }
  }

  lemma FilterMakesLower(d: string)
    requires All(NotUpper, d)
    ensures All(IsLowerSlugChar, Filter(IsSlugChar, d))
  {
    var k := Filter(IsSlugChar, d);
    forall i | 0 <= i < |k| ensures IsLowerSlugChar(k[i]) {
      assert k[i] in k;
      assert IsSlugChar(k[i]) && NotUpper(k[i]);
    }
  }

  lemma CollapseStaysIn(P: char -> bool, s: string)
    requires All(P, s)
    ensures All(P, CollapseDashes(s))
  {
    var r := CollapseDashes(s);
    forall i | 0 <= i < |r| ensures P(r[i]) {
      assert r[i] in r;
      var j :| 0 <= j < |s| && s[j] == r[i];
    }
  }

  lemma PreparedHasNoUpper(nfd: Normalizer, text: string)
    ensures All(NotUpper, Prepared(nfd, text))
  {
  }

  // ---------------------------------------------------------------------------
  // Word characters survive, in order

  lemma {:induction false} FilterNarrows(P: char -> bool, Q: char -> bool, s: string)
    requires forall c :: P(c) ==> Q(c)
    ensures Filter(P, Filter(Q, s)) == Filter(P, s)
  {
    if |s| > 0 {
      FilterNarrows(P, Q, s[1..]);
      var head := if Q(s[0]) then [s[0]] else [];
      FilterAppend(P, head, Filter(Q, s[1..]));
    }
  }

  lemma SpacesAreNotWords(s: string)
    requires All(IsJsSpace, s)
    ensures Filter(IsWordChar, s) == []
  {
    forall i | 0 <= i < |s| ensures !IsWordChar(s[i]) {
      assert IsJsSpace(s[i]);
    }
    FilterDropsAll(IsWordChar, s);
  }

  lemma TrimStartKeepsWords(s: string)
    ensures Filter(IsWordChar, TrimStart(s)) == Filter(IsWordChar, s)
  {
    var a := TrimStart(s);
    var pre := s[..|s| - |a|];
    assert s == pre + a;
    FilterAppend(IsWordChar, pre, a);
    SpacesAreNotWords(pre);
  }

  lemma TrimEndKeepsWords(s: string)
    ensures Filter(IsWordChar, TrimEnd(s)) == Filter(IsWordChar, s)
  {
    var b := TrimEnd(s);
    var post := s[|b|..];
    assert s == b + post;
    FilterAppend(IsWordChar, b, post);
    SpacesAreNotWords(post);
  }

  lemma TrimKeepsWords(s: string)
    ensures Filter(IsWordChar, Trim(s)) == Filter(IsWordChar, s)
  {
    TrimStartKeepsWords(s);
    TrimEndKeepsWords(TrimStart(s));
  }

  lemma {:induction false} DashSpacesKeepsWords(s: string)
    ensures Filter(IsWordChar, DashSpaces(s)) == Filter(IsWordChar, s)
  {
    if |s| > 0 {
      DashSpacesKeepsWords(s[1..]);
      if IsJsSpace(s[0]) && |s| > 1 && IsJsSpace(s[1]) {
      } else {
        var c := if IsJsSpace(s[0]) then '-' else s[0];
        FilterAppend(IsWordChar, [c], DashSpaces(s[1..]));
      }
    }
  }

  lemma {:induction false} CollapseKeepsWords(s: string)
    ensures Filter(IsWordChar, CollapseDashes(s)) == Filter(IsWordChar, s)
  {
    if |s| >= 2 {
      CollapseKeepsWords(s[1..]);
      if !(s[0] == '-' && s[1] == '-') {
        FilterAppend(IsWordChar, [s[0]], CollapseDashes(s[1..]));
      }
    }
  }

  lemma SlugifyKeepsWords(p: string)
    ensures Filter(IsWordChar, CollapseDashes(Filter(IsSlugChar, DashSpaces(Trim(p)))))
         == Filter(IsWordChar, p)
  {
    var d := DashSpaces(Trim(p));
    CollapseKeepsWords(Filter(IsSlugChar, d));
    FilterNarrows(IsWordChar, IsSlugChar, d);
    DashSpacesKeepsWords(Trim(p));
    TrimKeepsWords(p);
  }

  // ---------------------------------------------------------------------------
  // Where the dashes go

  predicate IsDash(c: char) { c == '-' }

  predicate NotDash(c: char) { !IsDash(c) }

  /** A character other than white space is kept in front of the rest. */
  lemma DashSpacesCons(c: char, t: string)
    requires !IsJsSpace(c)
    ensures DashSpaces([c] + t) == [c] + DashSpaces(t)
  {
    var u := [c] + t;
    assert u[0] == c && u[1..] == t;
  }

  /** Text without white space is copied as it is in front of the rest. */
  lemma {:induction false} DashSpacesAfterWord(w: string, s: string)
    requires All(NotSpace, w)
    ensures DashSpaces(w + s) == w + DashSpaces(s)
  {
    if |w| > 0 {
      var t := w[1..] + s;
      assert w + s == [w[0]] + t;
      assert NotSpace(w[0]);
      DashSpacesCons(w[0], t);
      assert All(NotSpace, w[1..]) by {
        forall i | 0 <= i < |w[1..]| ensures NotSpace(w[1..][i]) {
          assert w[1..][i] == w[i + 1];
        }
      }
      DashSpacesAfterWord(w[1..], s);
      assert [w[0]] + (w[1..] + DashSpaces(s)) == w + DashSpaces(s);
    } else {
      assert w + s == s;
    }
  }

  /** A maximal run of white space becomes exactly one dash. */
  lemma {:induction false} DashSpacesRun(ws: string, b: string)
    requires |ws| > 0 && All(IsJsSpace, ws)
    requires |b| == 0 || !IsJsSpace(b[0])
    ensures DashSpaces(ws + b) == "-" + DashSpaces(b)
  {
    var u := ws + b;
    assert u[0] == ws[0] && u[1..] == ws[1..] + b;
    assert IsJsSpace(ws[0]);
    if |ws| > 1 {
      assert u[1] == ws[1] && IsJsSpace(ws[1]);
      assert All(IsJsSpace, ws[1..]) by {
        forall i | 0 <= i < |ws[1..]| ensures IsJsSpace(ws[1..][i]) {
          assert ws[1..][i] == ws[i + 1];
        }
      }
      DashSpacesRun(ws[1..], b);
    } else {
      assert ws[1..] + b == b;
    }
  }

  /** `replace(/\s+/g, "-")` puts one dash exactly where a run of white space
      was: after a space-free prefix, a run of white space, and text that does
      not start with white space. */
  lemma DashSpacesJoins(a: string, ws: string, b: string)
    requires All(NotSpace, a)
    requires |ws| > 0 && All(IsJsSpace, ws)
    requires |b| == 0 || !IsJsSpace(b[0])
    ensures DashSpaces(a + ws + b) == a + "-" + DashSpaces(b)
  {
    DashSpacesAfterWord(a, ws + b);
    DashSpacesRun(ws, b);
    Regroup(a, ws, b);
    Regroup(a, "-", DashSpaces(b));
  }

  /** Concatenation regrouped, proved where no other function is in sight. */
  lemma Regroup(x: string, y: string, z: string)
    ensures x + y + z == x + (y + z)
  {
  }

  /** Collapsing never touches a leading dash-free word. */
  lemma {:induction false} CollapseAfterWord(w: string, s: string)
    requires forall i | 0 <= i < |w| :: w[i] != '-'
    ensures CollapseDashes(w + s) == w + CollapseDashes(s)
  {
    if |w| > 0 {
      var t := w[1..] + s;
      assert w + s == [w[0]] + t;
      CollapseCons(w[0], t);
      CollapseAfterWord(w[1..], s);
      assert [w[0]] + (w[1..] + CollapseDashes(s)) == w + CollapseDashes(s);
    } else {
      assert w + s == s;
    }
  }

  /** A character other than a dash survives collapsing in front of the rest. */
  lemma CollapseCons(c: char, t: string)
    requires c != '-'
    ensures CollapseDashes([c] + t) == [c] + CollapseDashes(t)
  {
    var u := [c] + t;
    assert u[0] == c && u[1..] == t;
    if |t| == 0 {
      assert u == [c];
    }
  }

  /** A maximal run of dashes becomes exactly one dash. */
  lemma {:induction false} CollapseRun(ds: string, b: string)
    requires |ds| > 0 && All(IsDash, ds)
    requires |b| == 0 || b[0] != '-'
    ensures CollapseDashes(ds + b) == "-" + CollapseDashes(b)
  {
    var u := ds + b;
    assert u[0] == ds[0] == '-' && u[1..] == ds[1..] + b;
    if |ds| > 1 {
      assert u[1] == ds[1] == '-';
      assert All(IsDash, ds[1..]) by {
        forall i | 0 <= i < |ds[1..]| ensures IsDash(ds[1..][i]) {
          assert ds[1..][i] == ds[i + 1];
        }
      }
      CollapseRun(ds[1..], b);
    } else {
      assert ds[1..] + b == b;
      if |b| == 0 {
        assert u == "-";
      }
    }
  }

  /** `replace(/--+/g, "-")` leaves one dash exactly where a run of dashes
      was: after a dash-free prefix, a run of dashes, and text that does not
      start with a dash. */
  lemma CollapseJoins(a: string, ds: string, b: string)
    requires All(NotDash, a)
    requires |ds| > 0 && All(IsDash, ds)
    requires |b| == 0 || b[0] != '-'
    ensures CollapseDashes(a + ds + b) == a + "-" + CollapseDashes(b)
  {
    CollapseAfterWord(a, ds + b);
    CollapseRun(ds, b);
    Regroup(a, ds, b);
    Regroup(a, "-", CollapseDashes(b));
  }

  /** A non-empty run of ASCII letters, digits and `_`. */
  predicate IsAsciiWord(w: string) { |w| > 0 && All(IsWordChar, w) }

  /** The characters of a lower-cased ASCII word. */
  predicate IsLowerWordChar(c: char) { 'a' <= c <= 'z' || IsDecDigit(c) || c == '_' }

  lemma LoweredWord(w: string)
    requires IsAsciiWord(w)
    ensures |LowerAscii(w)| > 0 && All(IsLowerWordChar, LowerAscii(w))
    ensures All(IsAscii, w)
  {
    var l := LowerAscii(w);
    forall i | 0 <= i < |l| ensures IsLowerWordChar(l[i]) {
      assert IsWordChar(w[i]);
    }
    forall i | 0 <= i < |w| ensures IsAscii(w[i]) {
      assert IsWordChar(w[i]);
    }
  }

  /** A lower-cased word is a slug with no dash and no white space. */
  lemma LowerWordFacts(l: string)
    requires All(IsLowerWordChar, l)
    ensures IsSlug(l) && All(NotSpace, l) && All(IsSlugChar, l)
    ensures forall i | 0 <= i < |l| :: l[i] != '-'
  {
    forall i | 0 <= i < |l| ensures IsLowerSlugChar(l[i]) && NotSpace(l[i]) && IsSlugChar(l[i]) && l[i] != '-' {
      assert IsLowerWordChar(l[i]);
    }
  }

  /** An ASCII word slugs to its lower-case form. */
  lemma SlugifyWord(nfd: Normalizer, w: string)
    requires KeepsAscii(nfd)
    requires IsAsciiWord(w)
    ensures Slugify(nfd, w) == LowerAscii(w)
  {
    LoweredWord(w);
    assert nfd(w) == w;
    forall i | 0 <= i < |w| ensures NotMark(w[i]) {
      assert IsAscii(w[i]);
    }
    FilterKeepsAll(NotMark, w);
    LowerWordFacts(LowerAscii(w));
    PipelineFixesSlugs(LowerAscii(w));
  }

  lemma LowerAsciiJoin(a: string, ws: string, b: string)
    requires All(IsJsSpace, ws)
    ensures LowerAscii(a + ws + b) == LowerAscii(a) + ws + LowerAscii(b)
  {
    var x, y := LowerAscii(a + ws + b), LowerAscii(a) + ws + LowerAscii(b);
    forall i | 0 <= i < |x| ensures x[i] == y[i] {
      if |a| <= i < |a| + |ws| {
        assert IsJsSpace(ws[i - |a|]);
      }
    }
  }

  /** Two ASCII words separated by ASCII white space, after decomposition,
      mark stripping and lower-casing. */
  lemma PreparedJoin(nfd: Normalizer, w1: string, ws: string, w2: string)
    requires KeepsAscii(nfd)
    requires IsAsciiWord(w1) && IsAsciiWord(w2)
    requires |ws| > 0 && All(IsJsSpace, ws) && All(IsAscii, ws)
    ensures Prepared(nfd, w1 + ws + w2) == LowerAscii(w1) + ws + LowerAscii(w2)
  {
    var x := w1 + ws + w2;
    LoweredWord(w1);
    LoweredWord(w2);
    forall i | 0 <= i < |x| ensures IsAscii(x[i]) && NotMark(x[i]) {
      if i < |w1| {
        assert x[i] == w1[i];
      } else if i < |w1| + |ws| {
        assert x[i] == ws[i - |w1|];
      } else {
        assert x[i] == w2[i - |w1| - |ws|];
      }
    }
    assert nfd(x) == x;
    FilterKeepsAll(NotMark, x);
    LowerAsciiJoin(w1, ws, w2);
  }

  /** Two lower-cased words around white space are already trimmed. */
  lemma TrimJoin(l1: string, ws: string, l2: string)
    requires |l1| > 0 && All(IsLowerWordChar, l1)
    requires |l2| > 0 && All(IsLowerWordChar, l2)
    ensures Trim(l1 + ws + l2) == l1 + ws + l2
  {
    var x := l1 + ws + l2;
    assert x[0] == l1[0] && IsLowerWordChar(l1[0]);
    TrimStartKeeps(x);
    assert x[|x| - 1] == l2[|l2| - 1] && IsLowerWordChar(l2[|l2| - 1]);
    assert TrimEnd(x) == x;
  }

  /** Two lower-cased words joined by one dash pass the `[^\w-]` filter and
      the dash collapse unchanged. */
  lemma FilterCollapseJoin(l1: string, l2: string)
    requires |l1| > 0 && All(IsLowerWordChar, l1)
    requires |l2| > 0 && All(IsLowerWordChar, l2)
    ensures CollapseDashes(Filter(IsSlugChar, l1 + "-" + l2)) == l1 + "-" + l2
  {
    LowerWordFacts(l1);
    LowerWordFacts(l2);
    var j := l1 + "-" + l2;
    forall i | 0 <= i < |j| ensures IsSlugChar(j[i]) {
      if i < |l1| {
        assert j[i] == l1[i];
      } else if i > |l1| {
        assert j[i] == l2[i - |l1| - 1];
      }
    }
    FilterKeepsAll(IsSlugChar, j);
    assert All(IsDash, "-");
    CollapseJoins(l1, "-", l2);
    CollapseFixes(l2);
  }

  /** Trimming, dashing, filtering and collapsing two lower-cased words
      separated by white space joins them with one dash. */
  lemma PipelineJoin(l1: string, ws: string, l2: string)
    requires |l1| > 0 && All(IsLowerWordChar, l1)
    requires |l2| > 0 && All(IsLowerWordChar, l2)
    requires |ws| > 0 && All(IsJsSpace, ws)
    ensures CollapseDashes(Filter(IsSlugChar, DashSpaces(Trim(l1 + ws + l2)))) == l1 + "-" + l2
  {
    TrimJoin(l1, ws, l2);
    LowerWordFacts(l1);
    LowerWordFacts(l2);
    assert NotSpace(l2[0]);
    DashSpacesJoins(l1, ws, l2);
    DashSpacesFixes(l2);
    FilterCollapseJoin(l1, l2);
  }

  lemma LowerKeepsLower(l: string)
    requires All(IsLowerWordChar, l)
    ensures LowerAscii(l) == l
  {
    var r := LowerAscii(l);
    forall i | 0 <= i < |l| ensures r[i] == l[i] {
      assert IsLowerWordChar(l[i]);
    }
  }

  /** Two ASCII words separated by white space slug to their two slugs
      joined by one dash, so "Seat Leon" and "SeatLeon" slug differently. */
  lemma SlugifyJoinsWords(nfd: Normalizer, w1: string, ws: string, w2: string)
    requires KeepsAscii(nfd)
    requires IsAsciiWord(w1) && IsAsciiWord(w2)
    requires |ws| > 0 && All(IsJsSpace, ws) && All(IsAscii, ws)
    ensures Slugify(nfd, w1 + ws + w2) == Slugify(nfd, w1) + "-" + Slugify(nfd, w2)
  {
    PreparedJoin(nfd, w1, ws, w2);
    LoweredWord(w1);
    LoweredWord(w2);
    PipelineJoin(LowerAscii(w1), ws, LowerAscii(w2));
    SlugifyWord(nfd, w1);
    SlugifyWord(nfd, w2);
  }

  /** Lower-case words separated by white space are joined by one dash. */
  lemma SlugifyLowerWords(nfd: Normalizer, l1: string, ws: string, l2: string)
    requires KeepsAscii(nfd)
    requires |l1| > 0 && All(IsLowerWordChar, l1) && |l2| > 0 && All(IsLowerWordChar, l2)
    requires |ws| > 0 && All(IsJsSpace, ws) && All(IsAscii, ws)
    ensures Slugify(nfd, l1 + ws + l2) == l1 + "-" + l2
  {
    forall i | 0 <= i < |l1| ensures IsWordChar(l1[i]) {
      assert IsLowerWordChar(l1[i]);
    }
    forall i | 0 <= i < |l2| ensures IsWordChar(l2[i]) {
      assert IsLowerWordChar(l2[i]);
    }
    SlugifyJoinsWords(nfd, l1, ws, l2);
    SlugifyWord(nfd, l1);
    SlugifyWord(nfd, l2);
    LowerKeepsLower(l1);
    LowerKeepsLower(l2);
  }

  // ---------------------------------------------------------------------------
  // Idempotence

  lemma {:induction false} DashSpacesFixes(s: string)
    requires All(NotSpace, s)
    ensures DashSpaces(s) == s
  {
    if |s| > 0 {
      DashSpacesFixes(s[1..]);
    }
  }

  lemma {:induction false} CollapseFixes(s: string)
    requires NoDoubleDash(s)
    ensures CollapseDashes(s) == s
  {
    if |s| >= 2 {
      CollapseFixes(s[1..]);
    }
  }

  lemma SlugHasNoSpace(s: string)
    requires All(IsLowerSlugChar, s)
    ensures All(NotSpace, s)
  {
    forall i | 0 <= i < |s| ensures NotSpace(s[i]) {
      assert IsLowerSlugChar(s[i]);
    }
  }

  lemma PreparedFixesSlugs(nfd: Normalizer, s: string)
    requires KeepsAscii(nfd)
    requires All(IsLowerSlugChar, s)
    ensures Prepared(nfd, s) == s
  {
    forall i | 0 <= i < |s| ensures IsAscii(s[i]) {
      assert IsLowerSlugChar(s[i]);
    }
    assert nfd(s) == s;
    forall i | 0 <= i < |s| ensures NotMark(s[i]) {
      assert IsLowerSlugChar(s[i]);
    }
    FilterKeepsAll(NotMark, s);
    assert LowerAscii(s) == s;
  }

  lemma TrimFixesSlugs(s: string)
    requires All(NotSpace, s)
    ensures Trim(s) == s
  {
    TrimStartKeeps(s);
    assert TrimEnd(s) == s;
  }

  /** The steps after decomposition, stripping and lower-casing leave a slug
      as it is. */
  lemma PipelineFixesSlugs(s: string)
    requires IsSlug(s)
    ensures CollapseDashes(Filter(IsSlugChar, DashSpaces(Trim(s)))) == s
  {
    SlugHasNoSpace(s);
    TrimFixesSlugs(s);
    DashSpacesFixes(s);
    forall i | 0 <= i < |s| ensures IsSlugChar(s[i]) {
      assert IsLowerSlugChar(s[i]);
    }
    FilterKeepsAll(IsSlugChar, s);
    CollapseFixes(s);
  }

  /** Every step of the pipeline leaves a slug as it is, given a decomposition
      that leaves ASCII text alone. */
  lemma SlugifyFixesSlugs(nfd: Normalizer, s: string)
    requires KeepsAscii(nfd)
    requires IsSlug(s)
    ensures Slugify(nfd, s) == s
  {
    PreparedFixesSlugs(nfd, s);
    PipelineFixesSlugs(s);
  }

  /** `slugify` is idempotent on its own output. */
  lemma SlugifyIdempotent(nfd: Normalizer, text: string)
    requires KeepsAscii(nfd)
    ensures Slugify(nfd, Slugify(nfd, text)) == Slugify(nfd, text)
  {
    SlugifyFixesSlugs(nfd, Slugify(nfd, text));
  }

  /** A precomposed letter is kept as its base letter once it is decomposed:
      "Málaga" slugs to "malaga". */
  lemma SlugifyDecomposes(nfd: Normalizer)
    requires nfd("M\U{e1}laga") == "Ma\U{301}laga"
    ensures Slugify(nfd, "M\U{e1}laga") == "malaga"
  {
    StripsAcute();
    LowersMalaga();
    PipelineFixesSlugs("malaga");
  }

  // The two literal facts below stand alone: evaluated inside
  // `SlugifyDecomposes` they make the solver unfold `Slugify` on the literal.
  lemma StripsAcute()
    ensures Filter(NotMark, "Ma\U{301}laga") == "Malaga"
  {
    var d := "Ma\U{301}laga";
    assert Filter(NotMark, d) == "Malaga";
  }

  lemma LowersMalaga()
    ensures LowerAscii("Malaga") == "malaga"
    ensures IsSlug("malaga")
  {
    var m := "malaga";
    forall i | 0 <= i < |m| ensures 'a' <= m[i] <= 'z' {
    }
  }
}

=== FILE: supervisor.dfy ===
/** `startScrapingWithRetries`: calls the whole crawl again after a pause
    whenever it throws, up to a fixed number of calls, and never throws itself. */
module Supervisor {
  import opened Retry
  import Crawl

  /** The default number of calls of the crawl. */
  const MaxRetries := 5
  /** The pause before a new call, in milliseconds. */
  const CooldownMs := 30000

  /** One call of `scrapeCochesCom`: the set-up before its `try` (browser
      launch, new tab, user agent, statement preparation), the page loop, and
      the `finally` clean-up that closes the browser and the database. */
  datatype Invocation<E> = Invocation(setup: Attempt<E>, run: Crawl.Stop, cleanup: Attempt<E>)

  /** Whether the call threw. The page loop's own errors, a page load that
      failed all its retries included, are caught inside the call, so only the
      set-up and the clean-up can make it throw; a failed set-up skips the
      clean-up, which the `try` has not been entered to run. */
  function Outcome<E>(inv: Invocation<E>): (r: Attempt<E>)
    ensures r.Succeeded? <==> inv.setup.Succeeded? && inv.cleanup.Succeeded?
    ensures inv.setup.Failed? ==> r == inv.setup
    ensures inv.setup.Succeeded? ==> r == inv.cleanup
  {
    match inv.setup
    case Failed(e) => Failed(e)
    case Succeeded => inv.cleanup
  }

  /** How the page loop ended never decides whether the call is repeated:
      a loop cut short by a failed page load counts as a completed call. */
  lemma OutcomeIgnoresRun<E>(inv: Invocation<E>, reason: Crawl.Stop)
    ensures Outcome(inv.(run := reason)) == Outcome(inv)
  {
  }

  /** `startScrapingWithRetries(maxRetries)`: call `k` of the crawl is
      `scrape(k)`. Stops after the first call that does not throw; otherwise
      pauses `cooldownMs` and calls again, until `maxRetries` calls have
      thrown, and then gives up without rethrowing. With `maxRetries <= 0`
      the crawl is never called. */
  method StartScrapingWithRetries<E>(scrape: nat -> Invocation<E>, maxRetries: int, cooldownMs: nat)
    returns (calls: nat, completed: bool, log: seq<Event>)
    ensures calls == 0 <==> maxRetries <= 0
    ensures calls <= maxRetries || calls == 0
    ensures log == Schedule(calls, cooldownMs)
    ensures forall k | 1 <= k < calls :: Outcome(scrape(k)).Failed?
    ensures completed <==> calls > 0 && Outcome(scrape(calls)).Succeeded?
    ensures calls > 0 && !completed ==> calls == maxRetries
  {
    var attempt := 0;
    calls := 0;
    completed := false;
    log := [];
    while attempt < maxRetries
      invariant 0 <= attempt && calls == attempt && !completed
      invariant attempt == 0 || attempt <= maxRetries
      invariant log == Schedule(attempt, cooldownMs) + (if 0 < attempt < maxRetries then [Wait(cooldownMs)] else [])
      invariant forall k | 1 <= k <= attempt :: Outcome(scrape(k)).Failed?
      decreases maxRetries - attempt
    {
      calls := attempt + 1;
      log := log + [Try(calls)];
      match Outcome(scrape(calls))
      case Succeeded =>
        completed := true;
        return;
      case Failed(_) =>
        attempt := attempt + 1;
        if attempt < maxRetries {
          log := log + [Wait(cooldownMs)];
        }
    }
  }
}

=== FILE: url_store.dfy ===
/** The `urls` table: `url` is the primary key and rows are written with
    `INSERT OR IGNORE`, so a second insert of a known URL changes nothing. */
module UrlStore {

  /** A row's columns other than the key. The collection date, filled in by
      the database clock, is not modelled. */
  datatype UrlRecord = UrlRecord(status: string, country: string, province: string)

  type Store = map<string, UrlRecord>

  /** One row to insert. */
  datatype Entry = Entry(url: string, record: UrlRecord)

  /** The store after a batch of inserts, and for each insert whether it
      reported a change (`info.changes > 0`). */
  datatype Batch = Batch(store: Store, changed: seq<bool>)

  /** `INSERT OR IGNORE`: a new key is added with its record; an existing row
      is left exactly as it was and the insert reports no change. */
  function InsertOrIgnore(store: Store, e: Entry): (r: (Store, bool))
    ensures r.1 <==> e.url !in store
    ensures r.0.Keys == store.Keys + {e.url}
    ensures r.0[e.url] == if r.1 then e.record else store[e.url]
    ensures forall u | u in store :: r.0[u] == store[u]
    ensures |r.0| == |store| + (if r.1 then 1 else 0)
  {
    if e.url in store then (store, false) else (store[e.url := e.record], true)
  }

  /** Inserting the same row twice reports a change, then none, and leaves one row. */
  lemma InsertTwice(store: Store, e: Entry)
    requires e.url !in store
    ensures var (s1, c1) := InsertOrIgnore(store, e);
            var (s2, c2) := InsertOrIgnore(s1, e);
            c1 && !c2 && s2 == s1 && s2.Keys == store.Keys + {e.url}
  {
  }

  function UrlSet(es: seq<Entry>): set<string> {
    set i | 0 <= i < |es| :: es[i].url
  }

  function CountTrue(bs: seq<bool>): nat {
    if |bs| == 0 then 0 else (if bs[0] then 1 else 0) + CountTrue(bs[1..])
  }

  /** What a batch of inserts does: it adds exactly the batch's new URLs,
      leaves every existing row as it was, reports an insert as a change
      exactly when its URL was neither in the store nor earlier in the batch,
      stores each changed row's own record, and the number of changes is the
      number of rows added. */
  ghost predicate BatchSpec(store: Store, es: seq<Entry>, b: Batch) {
    && |b.changed| == |es|
    && b.store.Keys == store.Keys + UrlSet(es)
    && (forall u | u in store :: b.store[u] == store[u])
    && (forall i | 0 <= i < |es| ::
          b.changed[i] <==> es[i].url !in store && es[i].url !in UrlSet(es[..i]))
    && (forall i | 0 <= i < |es| && b.changed[i] ::
          es[i].url in b.store && b.store[es[i].url] == es[i].record)
    && CountTrue(b.changed) == |b.store| - |store| == |UrlSet(es) - store.Keys|
  }

  /** The inserts of one page, in order. */
  function InsertAll(store: Store, es: seq<Entry>): (b: Batch)
    ensures |b.changed| == |es|
    decreases |es|
  {
    if |es| == 0 then Batch(store, [])
    else
      var (s1, f) := InsertOrIgnore(store, es[0]);
      var rest := InsertAll(s1, es[1..]);
      Batch(rest.store, [f] + rest.changed)
  }

  /** The inserts of one page do what `BatchSpec` says. */
  lemma {:induction false} InsertAllMeetsSpec(store: Store, es: seq<Entry>)
    ensures BatchSpec(store, es, InsertAll(store, es))
    decreases |es|
  {
    if |es| > 0 {
      var (s1, f) := InsertOrIgnore(store, es[0]);
      InsertAllMeetsSpec(s1, es[1..]);
      InsertAllStep(store, es, s1, f, InsertAll(s1, es[1..]));
    }
  }

  lemma InsertAllStep(store: Store, es: seq<Entry>, s1: Store, f: bool, rest: Batch)
    requires |es| > 0
    requires (s1, f) == InsertOrIgnore(store, es[0])
    requires BatchSpec(s1, es[1..], rest)
    ensures BatchSpec(store, es, Batch(rest.store, [f] + rest.changed))
  {
    StepStore(store, es, s1, f, rest.store);
    StepChanged(store, es, s1, f, rest.changed);
    StepRecords(es, f, rest);
    StepCount(store, es, s1, f, rest);
  }

  lemma StepStore(store: Store, es: seq<Entry>, s1: Store, f: bool, last: Store)
    requires |es| > 0
    requires (s1, f) == InsertOrIgnore(store, es[0])
    requires last.Keys == s1.Keys + UrlSet(es[1..])
    requires forall u | u in s1 :: last[u] == s1[u]
    ensures last.Keys == store.Keys + UrlSet(es)
    ensures forall u | u in store :: last[u] == store[u]
    ensures f ==> es[0].url in last && last[es[0].url] == es[0].record
  {
    UrlSetCons(es);
  }

  lemma UrlSetSplit(es: seq<Entry>, i: nat)
    requires 0 < i <= |es|
    ensures UrlSet(es[..i]) == {es[0].url} + UrlSet(es[1..][..i - 1])
  {
    var l := UrlSet(es[..i]);
    var r := {es[0].url} + UrlSet(es[1..][..i - 1]);
    forall u | u in l ensures u in r {
      var k :| 0 <= k < i && es[..i][k].url == u;
      if k > 0 {
        assert es[1..][..i - 1][k - 1] == es[k];
      }
    }
    forall u | u in r ensures u in l {
      if u != es[0].url {
        var k :| 0 <= k < i - 1 && es[1..][..i - 1][k].url == u;
        assert es[..i][k + 1] == es[k + 1];
      } else {
        assert es[..i][0] == es[0];
      }
    }
  }

  lemma UrlSetCons(es: seq<Entry>)
    requires |es| > 0
    ensures UrlSet(es) == {es[0].url} + UrlSet(es[1..])
  {
    UrlSetSplit(es, |es|);
    assert es[..|es|] == es;
    assert es[1..][..|es| - 1] == es[1..];
  }

  lemma StepChanged(store: Store, es: seq<Entry>, s1: Store, f: bool, rest: seq<bool>)
    requires |es| > 0
    requires (s1, f) == InsertOrIgnore(store, es[0])
    requires |rest| == |es| - 1
    requires forall i | 0 <= i < |es| - 1 ::
               rest[i] <==> es[1..][i].url !in s1 && es[1..][i].url !in UrlSet(es[1..][..i])
    ensures forall i | 0 <= i < |es| ::
              ([f] + rest)[i] <==> es[i].url !in store && es[i].url !in UrlSet(es[..i])
  {
    forall i | 0 <= i < |es|
      ensures ([f] + rest)[i] <==> es[i].url !in store && es[i].url !in UrlSet(es[..i])
    {
      if i == 0 {
        assert UrlSet(es[..0]) == {};
      } else {
        UrlSetSplit(es, i);
        assert es[1..][i - 1] == es[i];
        assert ([f] + rest)[i] == rest[i - 1];
      }
    }
  }

  lemma StepRecords(es: seq<Entry>, f: bool, rest: Batch)
    requires |es| > 0
    requires |rest.changed| == |es| - 1
    requires f ==> es[0].url in rest.store && rest.store[es[0].url] == es[0].record
    requires forall i | 0 <= i < |es| - 1 && rest.changed[i] :: es[1..][i].url in rest.store && rest.store[es[1..][i].url] == es[1..][i].record
    ensures forall i | 0 <= i < |es| && ([f] + rest.changed)[i] :: es[i].url in rest.store && rest.store[es[i].url] == es[i].record
  {
    forall i | 0 <= i < |es| && ([f] + rest.changed)[i] ensures es[i].url in rest.store && rest.store[es[i].url] == es[i].record {
      if i > 0 {
        assert es[1..][i - 1] == es[i];
        assert ([f] + rest.changed)[i] == rest.changed[i - 1];
      }
    }
  }

  lemma StepCount(store: Store, es: seq<Entry>, s1: Store, f: bool, rest: Batch)
    requires |es| > 0
    requires (s1, f) == InsertOrIgnore(store, es[0])
    requires CountTrue(rest.changed) == |rest.store| - |s1| == |UrlSet(es[1..]) - s1.Keys|
    ensures CountTrue([f] + rest.changed) == |rest.store| - |store| == |UrlSet(es) - store.Keys|
  {
    assert ([f] + rest.changed)[1..] == rest.changed;
    assert CountTrue([f] + rest.changed) == (if f then 1 else 0) + CountTrue(rest.changed);
    StepNewUrls(store, es, s1, f);
  }

  lemma StepNewUrls(store: Store, es: seq<Entry>, s1: Store, f: bool)
    requires |es| > 0
    requires (s1, f) == InsertOrIgnore(store, es[0])
    ensures |UrlSet(es) - store.Keys| == (if f then 1 else 0) + |UrlSet(es[1..]) - s1.Keys|
  {
    UrlSetCons(es);
    var head := es[0].url;
    var tail := UrlSet(es[1..]) - s1.Keys;
    if f {
      assert UrlSet(es) - store.Keys == {head} + tail;
      assert head !in tail;
    } else {
      assert UrlSet(es) - store.Keys == tail;
    }
  }
}

=== FILE: urls.dfy ===
/** The crawl target and the two URLs the crawler builds: the catalogue page
    for a page number, and the descriptive URL stored for each listing. */
module Urls {
  import opened Wrappers
  import opened JsText
  import opened Slug

  const SiteBase := "https://www.coches.com/coches-segunda-mano/"

  /** One crawl: a fuel filter and a model-year range. */
  datatype Target = Target(fuel: string, yearFrom: int, yearTo: int)

  /** The fields of a listing record that the URL is built from; `powerCv` is
      `None` when the record has no power figure. */
  datatype Listing = Listing(
    make: string,
    model: string,
    version: string,
    province: string,
    powerCv: Option<int>,
    visibleId: string)

  function PageUrlPrefix(t: Target): string {
    SiteBase + t.fuel + ".htm?anyo_desde=" + ShowInt(t.yearFrom)
    + "&anyo_hasta=" + ShowInt(t.yearTo) + "&page="
  }

  /** The catalogue URL of one page of a target. */
  function PageUrl(t: Target, page: int): string {
    PageUrlPrefix(t) + ShowInt(page)
  }

  /** The page number can be read back from the end of the page URL. */
  lemma PageUrlNamesPage(t: Target, page: int)
    ensures |PageUrlPrefix(t)| <= |PageUrl(t, page)|
    ensures ParseInt(PageUrl(t, page)[|PageUrlPrefix(t)|..]) == Num(page)
  {
    assert PageUrl(t, page)[|PageUrlPrefix(t)|..] == ShowInt(page) + [];
    ParseShowInt(page, []);
  }

  /** Distinct pages of one target have distinct URLs. */
  lemma PageUrlInjective(t: Target, p: int, q: int)
    requires PageUrl(t, p) == PageUrl(t, q)
    ensures p == q
  {
    PageUrlNamesPage(t, p);
    PageUrlNamesPage(t, q);
  }

  /** `${powerCv || ""}`: an absent or zero power prints as nothing. */
  function PowerText(power: Option<int>): string {
    match power
    case None => ""
    case Some(n) => if n == 0 then "" else ShowInt(n)
  }

  /** The engine part of the slug: power and version name, trimmed, slugified. */
  function EngineDetail(nfd: Normalizer, l: Listing): string {
    Slugify(nfd, Trim(PowerText(l.powerCv) + " " + l.version))
  }

  /** The joined slug before its dash runs are collapsed. */
  function JoinSlug(make: string, model: string, engine: string, province: string): string {
    "ocasion-" + make + "-" + model + "-" + engine + "-en-" + province
  }

  /** `ocasion-<make>-<model>-<engine>-en-<province>` with runs of dashes
      collapsed; every part is slugified with `nfd` as the decomposition. */
  function DescriptiveSlug(nfd: Normalizer, l: Listing): (r: string)
    ensures |r| >= 8 && r[..8] == "ocasion-"
    ensures IsSlug(r)
    ensures Filter(IsWordChar, r)
         == "ocasion" + Words(Slugify(nfd, l.make)) + Words(Slugify(nfd, l.model))
            + Words(EngineDetail(nfd, l)) + "en" + Words(Slugify(nfd, l.province))
  {
    var make, model := Slugify(nfd, l.make), Slugify(nfd, l.model);
    var engine, province := EngineDetail(nfd, l), Slugify(nfd, l.province);
    var j := JoinSlug(make, model, engine, province);
    JoinIsLower(make, model, engine, province);
    CollapseStaysIn(IsLowerSlugChar, j);
    CollapseKeepsPrefix(make, model, engine, province);
    CollapseKeepsWords(j);
    JoinWords(make, model, engine, province);
    CollapseDashes(j)
  }

  /** The URL stored for a listing. Its slug can be read back from it, and
      so can the listing id as long as the id has no `&` in it. The `origin`
      parameter carries the province name as it is, not slugified. */
  function ListingUrl(nfd: Normalizer, l: Listing): (r: string)
    ensures |SiteBase| <= |r| && r[..|SiteBase|] == SiteBase
    ensures ReadSlug(r) == DescriptiveSlug(nfd, l)
    ensures '&' !in l.visibleId ==> ReadId(r) == l.visibleId
    ensures '&' !in l.visibleId ==> ReadOrigin(r) == l.province
  {
    var d := DescriptiveSlug(nfd, l);
    SlugHasNoDot(d);
    SlugReadsBack(d, Query(l.visibleId, l.province));
    IdReadsBack(l.visibleId, l.province);
    OriginReadsBack(d, l.visibleId, l.province);
    ComposeUrl(d, l.visibleId, l.province)
  }

  /** `<site base><slug>.htm?id=<id>&origin=<province>`. */
  function ComposeUrl(slug: string, id: string, province: string): (r: string)
    ensures |SiteBase| <= |r| && r[..|SiteBase|] == SiteBase
  {
    SiteBase + slug + "." + Query(id, province)
  }

  /** What follows the slug and its dot: `htm?id=<id>&origin=<province>`. */
  function Query(id: string, province: string): string {
    "htm?id=" + id + "&origin=" + province
  }

  lemma AllAppend(P: char -> bool, a: string, b: string)
    requires All(P, a) && All(P, b)
    ensures All(P, a + b)
  {
    forall i | 0 <= i < |a + b| ensures P((a + b)[i]) {
      if i >= |a| {
        assert (a + b)[i] == b[i - |a|];
      }
    }
  }

  lemma JoinIsLower(make: string, model: string, engine: string, province: string)
    requires All(IsLowerSlugChar, make) && All(IsLowerSlugChar, model)
    requires All(IsLowerSlugChar, engine) && All(IsLowerSlugChar, province)
    ensures All(IsLowerSlugChar, JoinSlug(make, model, engine, province))
  {
    var dash, en := "-", "-en-";
    assert All(IsLowerSlugChar, "ocasion-");
    assert All(IsLowerSlugChar, dash);
    assert All(IsLowerSlugChar, en);
    var j := "ocasion-";
    AllAppend(IsLowerSlugChar, j, make);
    j := j + make;
    AllAppend(IsLowerSlugChar, j, dash);
    j := j + dash;
    AllAppend(IsLowerSlugChar, j, model);
    j := j + model;
    AllAppend(IsLowerSlugChar, j, dash);
    j := j + dash;
    AllAppend(IsLowerSlugChar, j, engine);
    j := j + engine;
    AllAppend(IsLowerSlugChar, j, en);
    j := j + en;
    AllAppend(IsLowerSlugChar, j, province);
    j := j + province;
    assert j == JoinSlug(make, model, engine, province);
  }

  /** The word characters of a text, in order. */
  function Words(s: string): string {
    Filter(IsWordChar, s)
  }

  /** The joined slug's word characters are those of its parts, with the
      words of the fixed `ocasion-` and `-en-` pieces in between. */
  lemma JoinWords(make: string, model: string, engine: string, province: string)
    ensures Words(JoinSlug(make, model, engine, province))
         == "ocasion" + Words(make) + Words(model) + Words(engine) + "en" + Words(province)
  {
    FixedPieceWords();
    var p1 := "ocasion-" + make;
    FilterAppend(IsWordChar, "ocasion-", make);
    var p2 := p1 + "-";
    FilterAppend(IsWordChar, p1, "-");
    assert Words(p2) == "ocasion" + Words(make);
    var p3 := p2 + model;
    FilterAppend(IsWordChar, p2, model);
    var p4 := p3 + "-";
    FilterAppend(IsWordChar, p3, "-");
    assert Words(p4) == "ocasion" + Words(make) + Words(model);
    var p5 := p4 + engine;
    FilterAppend(IsWordChar, p4, engine);
    var p6 := p5 + "-en-";
    FilterAppend(IsWordChar, p5, "-en-");
    assert Words(p6) == "ocasion" + Words(make) + Words(model) + Words(engine) + "en";
    FilterAppend(IsWordChar, p6, province);
    assert p6 + province == JoinSlug(make, model, engine, province);
  }

  /** The word characters of the fixed pieces of the slug. These literal
      facts are kept out of `JoinWords`, and split in two, because evaluating
      them inside a larger proof costs the solver far more. */
  lemma FixedPieceWords()
    ensures Words("ocasion-") == "ocasion"
    ensures Words("-") == []
    ensures Words("-en-") == "en"
  {
    OcasionWords();
    EnWords();
  }

  lemma OcasionWords()
    ensures Words("ocasion-") == "ocasion"
  {
  }

  lemma EnWords()
    ensures Words("-en-") == "en"
  {
  }

  lemma CollapseKeepsPrefix(make: string, model: string, engine: string, province: string)
    ensures var r := CollapseDashes(JoinSlug(make, model, engine, province));
            |r| >= 8 && r[..8] == "ocasion-"
  {
    var rest := "-" + make + "-" + model + "-" + engine + "-en-" + province;
    assert JoinSlug(make, model, engine, province) == "ocasion" + rest;
    CollapseAfterWord("ocasion", rest);
    var c := CollapseDashes(rest);
    assert c[0] == '-';
    assert ("ocasion" + c)[..8] == "ocasion-";
  }

  // ---------------------------------------------------------------------------
  // Reading a listing URL back

  /** The part of `s` before the first `c`, all of `s` when there is none. */
  function UpTo(c: char, s: string): (r: string)
    ensures |r| <= |s| && r == s[..|r|] && c !in r
  {
    if |s| == 0 || s[0] == c then [] else [s[0]] + UpTo(c, s[1..])
  }

  /** The part of `s` after the first `c`, empty when there is none. */
  function After(c: char, s: string): (r: string)
    ensures |r| <= |s| && r == s[|s| - |r|..]
  {
    if |s| == 0 then [] else if s[0] == c then s[1..] else After(c, s[1..])
  }

  lemma {:induction false} SplitAtFirst(c: char, a: string, b: string)
    requires c !in a
    ensures UpTo(c, a + [c] + b) == a
    ensures After(c, a + [c] + b) == b
  {
    if |a| > 0 {
      var t := a[1..] + [c] + b;
      assert a + [c] + b == [a[0]] + t;
      assert a[0] in a;
      assert forall x | x in a[1..] :: x in a;
      SplitAtFirst(c, a[1..], b);
      UpToCons(c, a[0], t);
      assert [a[0]] + a[1..] == a;
    } else {
      assert a + [c] + b == [c] + b;
    }
  }

  /** A character other than `c` in front of the text stays in front of the
      part before the first `c`, and does not change the part after it. */
  lemma UpToCons(c: char, d: char, t: string)
    requires d != c
    ensures UpTo(c, [d] + t) == [d] + UpTo(c, t)
    ensures After(c, [d] + t) == After(c, t)
  {
    assert ([d] + t)[0] == d && ([d] + t)[1..] == t;
  }

  /** The descriptive slug of a stored URL: what follows the site base up to
      the first dot. */
  function ReadSlug(url: string): string {
    if |url| < |SiteBase| then "" else UpTo('.', url[|SiteBase|..])
  }

  /** The `id` query parameter of a stored URL, up to the next `&`. */
  function ReadId(url: string): string {
    if |url| < |SiteBase| then ""
    else
      var query := After('.', url[|SiteBase|..]);
      if |query| < 7 || query[..7] != "htm?id=" then "" else UpTo('&', query[7..])
  }

  /** The `origin` query parameter of a stored URL: everything after the
      `&origin=` that follows the id. */
  function ReadOrigin(url: string): string {
    if |url| < |SiteBase| then ""
    else
      var query := After('.', url[|SiteBase|..]);
      if |query| < 7 then ""
      else
        var rest := After('&', query[7..]);
        if |rest| < 7 || rest[..7] != "origin=" then "" else rest[7..]
  }

  lemma SlugHasNoDot(d: string)
    requires IsSlug(d)
    ensures '.' !in d
  {
    forall i | 0 <= i < |d| ensures d[i] != '.' {
      assert IsLowerSlugChar(d[i]);
    }
  }

  lemma SlugReadsBack(d: string, q: string)
    requires '.' !in d
    ensures ReadSlug(SiteBase + d + "." + q) == d
    ensures After('.', (SiteBase + d + "." + q)[|SiteBase|..]) == q
  {
    var url := SiteBase + d + "." + q;
    assert url[|SiteBase|..] == d + ['.'] + q;
    SplitAtFirst('.', d, q);
  }

  lemma OriginReadsBack(d: string, id: string, province: string)
    requires '.' !in d
    ensures '&' !in id ==> ReadOrigin(SiteBase + d + "." + Query(id, province)) == province
  {
    if '&' in id {
      return;
    }
    var q := Query(id, province);
    SlugReadsBack(d, q);
    IdReadsBack(id, province);
    var rest := "origin=" + province;
    assert After('&', q[7..]) == rest;
    assert rest[..7] == "origin=" && rest[7..] == province;
  }

  lemma IdReadsBack(id: string, province: string)
    ensures var q := Query(id, province);
            && |q| >= 7 && q[..7] == "htm?id="
            && ('&' !in id ==> UpTo('&', q[7..]) == id && After('&', q[7..]) == "origin=" + province)
  {
    var q := Query(id, province);
    assert q[7..] == id + ['&'] + ("origin=" + province);
    if '&' !in id {
      SplitAtFirst('&', id, "origin=" + province);
    }
  }

  /** So two listings whose slugs or ids differ are never stored under the
      same URL. */
  lemma ListingUrlsDiffer(nfd: Normalizer, l: Listing, m: Listing)
    requires '&' !in l.visibleId && '&' !in m.visibleId
    requires DescriptiveSlug(nfd, l) != DescriptiveSlug(nfd, m) || l.visibleId != m.visibleId
    ensures ListingUrl(nfd, l) != ListingUrl(nfd, m)
  {
  }
}

=== FILE: wrappers.dfy ===
/** Optional values, used for a checkpoint file that may be missing or unreadable. */
module Wrappers {

  datatype Option<+T> = None | Some(value: T)
}
